=== FILE: README.md ===
# Replication core of the FIX gateway, modelled in Dafny

This project models five parts of the FIX gateway's replication and durable-log core, and proves properties of the model:

- The **Candidate** raft role: a node contesting an election. It grants or refuses RequestVotes, counts ReplyVotes, yields to consensus heartbeats and restarts the election when its vote timeout fires.
- The **TermState** it shares with the other roles: the leader's session, the leadership term and three log positions.
- The **ArchiveReader**. Its per-session readers resolve a log position to a term segment and an offset, then read one frame (`read`), a run of frames up to an end position (`readUpTo`) or a raw block (`readBlock`).
- The **ReplayIndex** of the engine logger. For every FIX session it appends one fixed-size record per FIX message to an index file. The file starts with a schema header, and records go at an in-memory cursor.
- The library's **InitiateSessionReply**. It asks the engine to connect to each configured address in turn. It moves on when the engine cannot connect, and fails when every address has been tried.

## Modelling conventions

- Each operation is a pure function from the object's state to its new state plus the effects it emits, in order. Effects include publications, handler calls, role changes and calls into the superclass.
- Java `short`, `int` and `long` values are subset types. Every `int` or `long` operation that can overflow goes through an explicit wrap (`JavaInts.Wrap32`, `JavaInts.Wrap64`).
- Calls whose bodies are not part of this model become parameters:
  - the jittered vote timeout's verdict;
  - the acknowledgement strategy's quorum rule;
  - the results of publishing;
  - the SBE and FIX decoders;
  - the archive's metadata and segments, as they stand at the time of the call.
- Aeron's `LogBufferDescriptor` is not part of this model. Term ids and offsets are computed as it computes them:
  - term id: `(int)(position >>> shift) + initialTermId`;
  - term offset: `(int)(position & ((1L << shift) - 1))`;
  - `shift` is the number of trailing zeros of the term buffer length.
- A frame's header is read through a bounds-checked buffer. A header offset outside the segment is an exception, modelled as the `HeaderOutOfBounds` outcome.
- `readBlock`'s Javadoc (ArchiveReader.java:128 and 247) says a block is only read when the archive holds all of it. The code instead clamps the length to the end of the segment, so `SessionReadBlock` clamps.

## Model

| member | source | states |
|---|---|---|
| `LogPositions.TrailingZeros` | fix-gateway-core/src/main/java/uk/co/real_logic/fix_gateway/engine/logger/ArchiveReader.java:174 | the shift of a term length: 32 for 0; otherwise the `r` with 2^r dividing the value and 2^(r+1) not dividing it, and 2^r is no larger than the value's magnitude |
| `LogPositions.ShiftOfPowerOfTwo` | fix-gateway-core/src/main/java/uk/co/real_logic/fix_gateway/engine/logger/ArchiveReader.java:174 | for a power-of-two term length, 2 to the power of its shift is the length itself |
| `LogPositions.TermIdOfPowerOfTwo` | fix-gateway-core/src/main/java/uk/co/real_logic/fix_gateway/engine/logger/ArchiveReader.java:306-309 | for a power-of-two term length, a non-negative position lies in term `initialTermId + position / termLength`, the sum wrapping as an `int` |
| `LogPositions.TermOffsetOfPowerOfTwo` | fix-gateway-core/src/main/java/uk/co/real_logic/fix_gateway/engine/logger/ArchiveReader.java:301-304 | for a power-of-two term length, a non-negative position lies at offset `position % termLength` |
| `LogPositions.DecomposeRoundTrip` | fix-gateway-core/src/main/java/uk/co/real_logic/fix_gateway/engine/logger/ArchiveReader.java:301-309 | whatever the initial term id, the term id and term offset recompose the position: `(termId - initialTermId) * termLength + termOffset == position`, the subtraction wrapping as an `int`, when the term count fits an `int`; the offset is below the term length |
| `LogPositions.SameTermSameId` | fix-gateway-core/src/main/java/uk/co/real_logic/fix_gateway/engine/logger/ArchiveReader.java:301-309 | positions that stay within one term share the term id, wrapped or not, and their offsets differ by the distance between them |
| `TermStates.TermState.SetLeaderPosition` | fix-gateway-core/src/main/java/uk/co/real_logic/fix_gateway/replication/TermState.java:47-51 | sets the leader identity and no other field |
| `TermStates.TermState.SetLeaderSessionId` | fix-gateway-core/src/main/java/uk/co/real_logic/fix_gateway/replication/TermState.java:53-57 | sets the leader session id and no other field |
| `TermStates.TermState.NoLeader` | fix-gateway-core/src/main/java/uk/co/real_logic/fix_gateway/replication/TermState.java:59-63 | clears only the leader identity, so whether there is a leader does not change |
| `TermStates.TermState.SetLeadershipTerm` | fix-gateway-core/src/main/java/uk/co/real_logic/fix_gateway/replication/TermState.java:65-69 | sets the term and no other field |
| `TermStates.TermState.SetReceivedPosition` | fix-gateway-core/src/main/java/uk/co/real_logic/fix_gateway/replication/TermState.java:71-75 | sets the received position and no other field |
| `TermStates.TermState.SetLastAppliedPosition` | fix-gateway-core/src/main/java/uk/co/real_logic/fix_gateway/replication/TermState.java:77-81 | sets the last applied position and no other field |
| `TermStates.TermState.SetConsensusPosition` | fix-gateway-core/src/main/java/uk/co/real_logic/fix_gateway/replication/TermState.java:83-87 | sets the consensus position and no other field |
| `TermStates.TermState.AllPositions` | fix-gateway-core/src/main/java/uk/co/real_logic/fix_gateway/replication/TermState.java:89-95 | sets the received, applied and consensus positions to one value and leaves the leader, its session and the term alone |
| `TermStates.TermState.Reset` | fix-gateway-core/src/main/java/uk/co/real_logic/fix_gateway/replication/TermState.java:127-134 | from any state, returns the freshly constructed state, which has no leader |
| `TermStates.Fresh` | fix-gateway-core/src/main/java/uk/co/real_logic/fix_gateway/replication/TermState.java:23-40 | a new term state has no leader (session id `NO_LEADER` = 0), no leader identity, and term and positions 0 |
| `TermStates.AllPositionsLastWins` | fix-gateway-core/src/main/java/uk/co/real_logic/fix_gateway/replication/TermState.java:89-95 | moving all positions twice is the same as moving them to the second value |
| `TermStates.SettersOfDifferentFieldsCommute` | fix-gateway-core/src/main/java/uk/co/real_logic/fix_gateway/replication/TermState.java:47-95 | setters of disjoint fields can be applied in either order |
| `TermStates.HasLeaderOnlyReadsSessionId` | fix-gateway-core/src/main/java/uk/co/real_logic/fix_gateway/replication/TermState.java:102-105 | whether there is a leader depends on the leader session id alone |
| `CandidateRole.NewCandidate` | fix-gateway-core/src/main/java/uk/co/real_logic/fix_gateway/replication/Candidate.java:50-71 | a new candidate holds no votes and is in term 0 |
| `CandidateRole.TransitionToFollower` | fix-gateway-core/src/main/java/uk/co/real_logic/fix_gateway/replication/Candidate.java:201-215 | stepping down forgets all votes, moves the three positions, adopts the leader and term, changes no other term-state field, and signals the follower role with the given `votedFor` |
| `CandidateRole.OnRequestVote` | fix-gateway-core/src/main/java/uk/co/real_logic/fix_gateway/replication/Candidate.java:111-128 | replies FOR and returns BREAK exactly when the term is newer and the requester's log reaches the consensus position; then it becomes a follower that voted for the requester at the consensus position; otherwise it replies AGAINST, changes nothing and emits nothing else |
| `CandidateRole.CountVote` | fix-gateway-core/src/main/java/uk/co/real_logic/fix_gateway/replication/Candidate.java:170-173 | adds the voter and reports whether it was not already counted; a repeat leaves the candidate unchanged |
| `CandidateRole.OnReplyVote` | fix-gateway-core/src/main/java/uk/co/real_logic/fix_gateway/replication/Candidate.java:140-168 | only a new FOR vote for this node in its term is counted; it keeps the timeout alive and passes on the voter's node state; the handler becomes leader, writes the term and returns BREAK exactly when the quorum rule accepts the new vote count; every other reply changes nothing |
| `CandidateRole.OnConsensusHeartbeat` | fix-gateway-core/src/main/java/uk/co/real_logic/fix_gateway/replication/Candidate.java:180-199 | returns BREAK exactly for a heartbeat from another node at or beyond the consensus position, whatever its term; the node then follows the sender with no vote, its only candidate change being that it forgets its votes; any other heartbeat changes nothing |
| `CandidateRole.OnResend` | fix-gateway-core/src/main/java/uk/co/real_logic/fix_gateway/replication/Candidate.java:217-228 | ignores resends: CONTINUE, no change, no effect |
| `CandidateRole.OnMessageAcknowledgement` | fix-gateway-core/src/main/java/uk/co/real_logic/fix_gateway/replication/Candidate.java:105-109 | ignores acknowledgements: CONTINUE, no change, no effect |
| `CandidateRole.ReadData` | fix-gateway-core/src/main/java/uk/co/real_logic/fix_gateway/replication/Candidate.java:94-98 | a candidate reads no data |
| `CandidateRole.StartElectionAsWritten` | fix-gateway-core/src/main/java/uk/co/real_logic/fix_gateway/replication/Candidate.java:240-246 | as written: the term goes up by one (wrapping as an `int`), the timeout is kept alive, the self-vote joins the votes already held, and one RequestVote for the new term is published at the consensus position |
| `CandidateRole.StartElection` | fix-gateway-core/src/main/java/uk/co/real_logic/fix_gateway/replication/Candidate.java:240-246 | the restart as intended: the same, except that only the self-vote is held afterwards |
| `CandidateRole.StartNewElectionAsWritten` | fix-gateway-core/src/main/java/uk/co/real_logic/fix_gateway/replication/Candidate.java:230-246 | as written: the election is held in the term after the term state's term, with one RequestVote carrying the node, its session, the consensus position and that term, and the self-vote joins the votes already held; the timeout is kept alive at the given time and no other candidate field changes |
| `CandidateRole.StartNewElection` | fix-gateway-core/src/main/java/uk/co/real_logic/fix_gateway/replication/Candidate.java:230-238 | the same election as intended: the same term, RequestVote and keep-alive, and no other candidate field changes, with only the self-vote held afterwards |
| `CandidateRole.CheckConditionsAsWritten` | fix-gateway-core/src/main/java/uk/co/real_logic/fix_gateway/replication/Candidate.java:73-85 | as written: reports 1 exactly when the timeout has fired, and then restarts the election as `startElection` does. That keeps the timeout alive, leaves the term state alone, keeps earlier votes and publishes one RequestVote for the node, its session, the consensus position and the next term. Otherwise it reports 0 and changes nothing |
| `CandidateRole.CheckConditions` | fix-gateway-core/src/main/java/uk/co/real_logic/fix_gateway/replication/Candidate.java:73-85 | reports 1 exactly when the timeout has fired, and then restarts the election as intended: the same effects and keep-alive, with only the self-vote held. Otherwise it reports 0 and changes nothing |
| `CandidateRole.BreakIffRoleChange` | fix-gateway-core/src/main/java/uk/co/real_logic/fix_gateway/replication/Candidate.java:111-199 | for every control message, a handler returns BREAK exactly when it requests a role change, that request is its last effect, and CONTINUE leaves the term state unchanged |
| `CandidateRole.NeverVotesForStaleLog` | fix-gateway-core/src/main/java/uk/co/real_logic/fix_gateway/replication/Candidate.java:111-128 | a FOR reply is only ever sent in answer to a RequestVote whose term is newer and whose log reaches the consensus position |
| `CandidateRole.DuplicateVoteIgnored` | fix-gateway-core/src/main/java/uk/co/real_logic/fix_gateway/replication/Candidate.java:150-173 | a ReplyVote delivered again after being counted changes nothing and emits nothing, including the vote that elected the candidate |
| `CandidateRole.ElectedByMajorityScenario` | fix-gateway-core/src/main/java/uk/co/real_logic/fix_gateway/replication/Candidate.java:140-168 | three nodes: one FOR vote beside the self-vote makes node 1 leader of term 1 |
| `CandidateRole.RefusesLaggingRequesterScenario` | fix-gateway-core/src/main/java/uk/co/real_logic/fix_gateway/replication/Candidate.java:111-128 | a newer-term request whose log ends before the consensus position is refused with no change |
| `CandidateRole.VotesComeFromCurrentTerm` | fix-gateway-core/src/main/java/uk/co/real_logic/fix_gateway/replication/Candidate.java:150-178 | over any batch of messages drained until BREAK, the votes a candidate gains all come from FOR replies for itself in its current term, and its identity and term do not change |
| `CandidateRole.PollCommands` | fix-gateway-core/src/main/java/uk/co/real_logic/fix_gateway/replication/Candidate.java:86-91 | a poll records its time; every role change requested during the batch carries that time, and the vote timeout is kept alive, if at all, at that time |
| `CandidateRole.PollStampsTime` | fix-gateway-core/src/main/java/uk/co/real_logic/fix_gateway/replication/Candidate.java:86-91 | over any batch drained until BREAK, the handlers keep the poll time, stamp every follower or leader request with it, and keep the vote timeout alive only at it |
| `CandidateRole.RestartCountsOnlyCurrentVotes` | fix-gateway-core/src/main/java/uk/co/real_logic/fix_gateway/replication/Candidate.java:240-246 | after a restart, whatever follows, the votes held are the self-vote and FOR votes cast in the new term |
| `CandidateRole.StaleVoteElects` | fix-gateway-core/src/main/java/uk/co/real_logic/fix_gateway/replication/Candidate.java:240-246 | as written, a term-1 vote survives the restart, and a single term-2 vote then elects node 1 in a five-node cluster |
| `CandidateRole.RestartNeedsFreshMajority` | fix-gateway-core/src/main/java/uk/co/real_logic/fix_gateway/replication/Candidate.java:240-246 | with votes dropped on restart, the same run does not elect node 1 |
| `CandidateRole.NewElectionCountsOnlyCurrentVotes` | fix-gateway-core/src/main/java/uk/co/real_logic/fix_gateway/replication/Candidate.java:230-246 | after a new election as intended, whatever follows, the votes held are the self-vote and FOR votes cast in the new term |
| `CandidateRole.WonVotesCarryIntoNewElection` | fix-gateway-core/src/main/java/uk/co/real_logic/fix_gateway/replication/Candidate.java:230-246 | as written, a candidate that won term 1 with nodes 2 and 3 keeps their votes into its next election, and one term-2 vote from node 4 elects it in a five-node cluster |
| `CandidateRole.NewElectionNeedsFreshMajority` | fix-gateway-core/src/main/java/uk/co/real_logic/fix_gateway/replication/Candidate.java:230-246 | with the intended new election, the same run does not elect it |
| `ArchiveReading.Scan` | fix-gateway-core/src/main/java/uk/co/real_logic/fix_gateway/engine/logger/ArchiveReader.java:283-299 | a position whose term segment is missing scans to `UNKNOWN_TERM`; otherwise to its term offset |
| `ArchiveReading.FrameLength` | fix-gateway-core/src/main/java/uk/co/real_logic/fix_gateway/engine/logger/ArchiveReader.java:292-296 | the frame length is read at the header offset only when the four bytes lie inside the segment; an unwritten word reads as 0 |
| `ArchiveReading.ProbeAt` | fix-gateway-core/src/main/java/uk/co/real_logic/fix_gateway/engine/logger/ArchiveReader.java:187-197 | what scanning finds: no term, a header out of bounds, an empty frame, or a frame with its non-zero length, the header being read 32 bytes before the term offset |
| `ArchiveReading.SessionRead` | fix-gateway-core/src/main/java/uk/co/real_logic/fix_gateway/engine/logger/ArchiveReader.java:185-202 | missing term gives `UNKNOWN_TERM` and an empty frame gives `NO_MESSAGE`, both with no handler call; otherwise exactly one handler call with the term offset and `frameLength - 32`, and the result `position + frameLength` |
| `ArchiveReading.Turn` | fix-gateway-core/src/main/java/uk/co/real_logic/fix_gateway/engine/logger/ArchiveReader.java:215-238 | one loop turn takes a frame exactly when a single read there yields one whose end passes the end check; it throws exactly when the read does, and moves forward unless the `long` wraps |
| `ArchiveReading.FrameStepsForward` | fix-gateway-core/src/main/java/uk/co/real_logic/fix_gateway/engine/logger/ArchiveReader.java:229-238 | with no negative frame lengths, a frame found has a positive length, its body length does not wrap, and the next position lies beyond it or has wrapped negative |
| `ArchiveReading.SessionReadUpTo` | fix-gateway-core/src/main/java/uk/co/real_logic/fix_gateway/engine/logger/ArchiveReader.java:212-242 | the fragments start at the begin position and the result is the position after the last one |
| `ArchiveReading.ReadUpToFragmentsAreReads` | fix-gateway-core/src/main/java/uk/co/real_logic/fix_gateway/engine/logger/ArchiveReader.java:212-242 | every handler call made by readUpTo is exactly the one a single read makes at that position, and passes the end check |
| `ArchiveReading.ReadUpToIsChain` | fix-gateway-core/src/main/java/uk/co/real_logic/fix_gateway/engine/logger/ArchiveReader.java:236-238 | each fragment starts where the previous frame ended |
| `ArchiveReading.ReadUpToIsMaximal` | fix-gateway-core/src/main/java/uk/co/real_logic/fix_gateway/engine/logger/ArchiveReader.java:215-234 | readUpTo stops only where no further frame fits by the end position, and throws only when the header at the position reached is outside its segment |
| `ArchiveReading.ReadUpToStaysInRange` | fix-gateway-core/src/main/java/uk/co/real_logic/fix_gateway/engine/logger/ArchiveReader.java:214-239 | away from the top of the `long` range, no fragment ends after the end position, the result is not below the begin position, and it is at most one header past the end position |
| `ArchiveReading.SessionReadBlock` | fix-gateway-core/src/main/java/uk/co/real_logic/fix_gateway/engine/logger/ArchiveReader.java:253-270 | true exactly when the term segment exists; then one block call for the session and term at the term offset, with the requested length clamped to the end of the segment |
| `ArchiveReading.NewSessionReader` | fix-gateway-core/src/main/java/uk/co/real_logic/fix_gateway/engine/logger/ArchiveReader.java:148-157 | a reader exists exactly for sessions with metadata, and takes the initial term id and the term length's shift from it |
| `ArchiveReading.NewReaderLocatesPositions` | fix-gateway-core/src/main/java/uk/co/real_logic/fix_gateway/engine/logger/ArchiveReader.java:170-176 | a reader built from a power-of-two term length places a non-negative position at term `initialTermId + position / termLength`, wrapped as an `int`, and offset `position % termLength` |
| `ArchiveReading.Session` | fix-gateway-core/src/main/java/uk/co/real_logic/fix_gateway/engine/logger/ArchiveReader.java:143-146 | the existing reader is returned unchanged; otherwise a new one is made and kept, or nothing is stored when there is no metadata; no other reader changes |
| `ArchiveReading.Read` | fix-gateway-core/src/main/java/uk/co/real_logic/fix_gateway/engine/logger/ArchiveReader.java:93-102 | an unknown session gives `UNKNOWN_SESSION` with no handler call; otherwise the session reader's read |
| `ArchiveReading.ReadUpTo` | fix-gateway-core/src/main/java/uk/co/real_logic/fix_gateway/engine/logger/ArchiveReader.java:113-123 | an unknown session gives `UNKNOWN_SESSION` with no handler call; otherwise the session reader's readUpTo |
| `ArchiveReading.ReadBlock` | fix-gateway-core/src/main/java/uk/co/real_logic/fix_gateway/engine/logger/ArchiveReader.java:136-141 | an unknown session gives false with no handler call; otherwise the session reader's readBlock |
| `ArchiveReading.UnknownSessionReadsNothing` | fix-gateway-core/src/main/java/uk/co/real_logic/fix_gateway/engine/logger/ArchiveReader.java:93-141 | for a session with no reader and no metadata, all three reads return their sentinel, call no handler, and create no reader |
| `ArchiveReading.ReadersAreNeverReplaced` | fix-gateway-core/src/main/java/uk/co/real_logic/fix_gateway/engine/logger/ArchiveReader.java:143-146 | once a session has a reader, no sequence of requests replaces it, whatever happens to the metadata |
| `ArchiveReading.ReaderKeepsFirstMetaData` | fix-gateway-core/src/main/java/uk/co/real_logic/fix_gateway/engine/logger/ArchiveReader.java:148-176 | a session's reader keeps the initial term id and term length of the metadata seen at its first read, through any later requests |
| `ReplayIndexing.NewReplayIndex` | fix-gateway-core/src/main/java/uk/co/real_logic/fix_gateway/engine/logger/ReplayIndex.java:58-69 | a new index holds no records for any session |
| `ReplayIndexing.NewSessionIndex` | fix-gateway-core/src/main/java/uk/co/real_logic/fix_gateway/engine/logger/ReplayIndex.java:112-124 | a new index file has its header written with the record's block length, template id, schema id and version, holds no records, and has its cursor right after the 8-byte header; it throws when the header does not fit the file |
| `ReplayIndexing.OnRecord` | fix-gateway-core/src/main/java/uk/co/real_logic/fix_gateway/engine/logger/ReplayIndex.java:126-139 | writes the record at the cursor and advances the cursor by the 20-byte block; it throws exactly when the record does not fit; on a packed file, earlier records stay and the record list grows by exactly this record |
| `ReplayIndexing.IndexWith` | fix-gateway-core/src/main/java/uk/co/real_logic/fix_gateway/engine/logger/ReplayIndex.java:71-95 | a frame that is not a FIX message changes nothing; otherwise exactly one record is appended to its FIX session's file, created on first use; it throws exactly when the file is full; every other session is untouched |
| `ReplayIndexing.IndexRecordAsWritten` | fix-gateway-core/src/main/java/uk/co/real_logic/fix_gateway/engine/logger/ReplayIndex.java:71-95 | as written: the appended record carries the frame's buffer offset in its position field |
| `ReplayIndexing.IndexRecord` | fix-gateway-core/src/main/java/uk/co/real_logic/fix_gateway/engine/logger/ReplayIndex.java:71-95 | as intended: the last record of the session carries the frame's log position, its sequence number, stream and Aeron session |
| `ReplayIndexing.IndexAllAppendsExpected` | fix-gateway-core/src/main/java/uk/co/real_logic/fix_gateway/engine/logger/ReplayIndex.java:71-95 | when nothing throws, a run of frames appends to each session's file exactly the reference records: one per FIX message of that session, in log order |
| `ReplayIndexing.Close` | fix-gateway-core/src/main/java/uk/co/real_logic/fix_gateway/engine/logger/ReplayIndex.java:97-100 | closing unmaps every session's file and forgets all cursors |
| `ReplayIndexing.CloseIsIdempotent` | fix-gateway-core/src/main/java/uk/co/real_logic/fix_gateway/engine/logger/ReplayIndex.java:97-100 | closing again closes nothing more |
| `ReplayIndexing.CloseRestartsCursor` | fix-gateway-core/src/main/java/uk/co/real_logic/fix_gateway/engine/logger/ReplayIndex.java:112-139 | after a close, the next FIX message of a session is written at the first record slot again |
| `ReplayIndexing.ThreeMessagesScenario` | fix-gateway-core/src/main/java/uk/co/real_logic/fix_gateway/engine/logger/ReplayIndex.java:71-95 | with the intended `indexRecord`, three FIX messages with sequence numbers 1, 2, 3 at log positions 10, 50, 90 leave exactly those three records, in order |
| `ReplayIndexing.AsWrittenStoresBufferOffset` | fix-gateway-core/src/main/java/uk/co/real_logic/fix_gateway/engine/logger/ReplayIndex.java:91-93 | as written, the first message of that scenario is indexed with position 0, its buffer offset, instead of 10 |
| `InitiateSession.NewReply` | artio-core/src/main/java/uk/co/real_logic/artio/library/InitiateSessionReply.java:35-49 | a new reply starts at the first address and sends to it only when the poller is connected |
| `InitiateSession.SendMessage` | artio-core/src/main/java/uk/co/real_logic/artio/library/InitiateSessionReply.java:51-68 | with every address tried, fails with "Unable to connect to any of the addresses specified" and sends nothing; otherwise sends to the current host and port, and needs a resend exactly when the publish position is negative |
| `InitiateSession.OnError` | artio-core/src/main/java/uk/co/real_logic/artio/library/InitiateSessionReply.java:70-82 | UNABLE_TO_CONNECT moves to the next address (an `int` increment), re-registers and sends again under the correlation id the registration gives; any other error fails with "type: message" and changes nothing |
| `InitiateSession.OnComplete` | artio-core/src/main/java/uk/co/real_logic/artio/library/InitiateSessionReply.java:84-90 | stamps the session with the current host and port, then completes |
| `InitiateSession.Poll` | artio-core/src/main/java/uk/co/real_logic/artio/library/InitiateSessionReply.java:92-100 | sends again exactly when a resend is pending, then polls the generic reply and returns its result |
| `InitiateSession.OnTimeout` | artio-core/src/main/java/uk/co/real_logic/artio/library/InitiateSessionReply.java:102-110 | always returns false; publishes the mid-connection disconnect under the current correlation id, then times the generic reply out only when that publication succeeded |
| `InitiateSession.TimeoutUsesLatestRegisteredId` | artio-core/src/main/java/uk/co/real_logic/artio/library/InitiateSessionReply.java:70-110 | after a run of connection failures, the reply holds the id it registered last, and a timeout publishes the disconnect under that id |
| `InitiateSession.AddressIndexCountsFailures` | artio-core/src/main/java/uk/co/real_logic/artio/library/InitiateSessionReply.java:70-82 | over any run of operations, the address index grows by exactly the number of connection failures, so it never decreases |
| `InitiateSession.FailoverWalksAddresses` | artio-core/src/main/java/uk/co/real_logic/artio/library/InitiateSessionReply.java:51-82 | consecutive connection failures re-register and try the following addresses in configuration order, one each, each request carrying the id just registered |
| `InitiateSession.FailsOnceAddressesAreExhausted` | artio-core/src/main/java/uk/co/real_logic/artio/library/InitiateSessionReply.java:51-82 | a failure at the last address re-registers and fails without sending |
| `InitiateSession.TwoAddressScenario` | artio-core/src/main/java/uk/co/real_logic/artio/library/InitiateSessionReply.java:38-82 | two addresses: the first is tried on creation, the second after one failure under the new id, and a second failure fails the reply |

## Left out

- File I/O is not modelled. This covers memory mapping, `File.exists`, unmapping, index file naming, `ArchiveReader.close`, `SessionReader.close` and `SessionIndex.close`. A missing segment file is a missing entry in the archive's segment map.
- The bounded caches' eviction policy is not modelled; the caches are plain maps. An evicted index file would restart its cursor like `CloseRestartsCursor` shows for `close`.
- `forEachPosition` is not modelled: it is an empty placeholder in the source.
- `pollCommands` is modelled as `PollCommands`: it records the caller's time of the poll in the candidate's `timeInMs`, then drains the batch until BREAK. The Aeron subscription's polling and its fragment limit are left out, and the batch is whatever the subscription delivered. `closeStreams` does nothing in the source.
- The source's `consensusPosition()` reads the consensus position of the term state's leader identity (`LeaderPosition`). The model reads the term state's own `consensusPosition` field in its place, in `GrantsVote`, `YieldsTo` and the published RequestVote. `LeaderPosition` is not part of this model, nor is the null dereference when no leader identity is set.
- Votes from node id -1 are not modelled. `IntHashSet` refuses its missing value -1.
- The vote timer's jitter is not modelled: `RandomTimeout` is a `hasTimedOut` verdict, and its keep-alive is the recorded `keepAliveMs`.
- The acknowledgement strategy is a quorum-rule parameter; its body is not part of this model.
- Debug logging is left out. So are the ignored results of `saveReplyVote` and `saveRequestVote`.
- Concurrency is left out: the atomic and volatile fields of the term state are plain fields.
- `LogBufferDescriptor` and `Header` are not part of this model. Their arithmetic and the frame-length read are written out as described above.
- The SBE and FIX decoders are oracles over the source buffer, and their own bounds checks on it are left out.
- The record block length 20 and header length 8 come from the record layout (two `int`s, a `long`, an `int`) and the SBE header. The generated codecs are not part of this model.
- Record bytes partly written before an out-of-bounds write throws are not modelled. The session's record list is unchanged in that case.
- `LibraryReply` and `LibraryPoller` are not part of this model. Registering, failing, completing, polling and timing out the generic reply are events, and the generic poll's result is a parameter. The correlation id that `register()` gives is a parameter of `OnError`, as is the id the reply starts with. Stamping the session's address is the `AddressStamped` event.
- ArchiveReading.SessionReadUpTo: requires that no frame-length word in the session's segments is negative. This is assumed of the archive's writer, which is not part of this model. With a negative word, the source's loop could step backwards and need not end.
- ArchiveReading.Turn: requires the same of the segments, for the same reason.
- ArchiveReading.ReadUpTo: requires the same of every session's segments, and so do the request batches `Serve` and `ServeAll`.
- ArchiveReading.ReadUpToStaysInRange: holds only away from the top of the `long` range (begin position at most 2^63 - 2^31 - 32, end position 32 below that). Nearer the top, `position += frameLength` can wrap negative, and the loop then returns that negative position.
- InitiateSession.AddressIndexCountsFailures: holds only while the index stays within an `int`. After 2^31 - 1 failures, `addressIndex++` wraps negative and the next send throws.
- InitiateSession.FailoverWalksAddresses: assumes at most 2^31 - 1 hosts, as any Java list holds.
- InitiateSession.FailsOnceAddressesAreExhausted: assumes at most 2^31 - 1 hosts, as any Java list holds.

## Findings

| source | as written | input that shows it | evidently intended | confidence | as-written member | corrected member |
|---|---|---|---|---|---|---|
| fix-gateway-core/src/main/java/uk/co/real_logic/fix_gateway/engine/logger/ReplayIndex.java:93 | the record's position field gets `srcOffset`, the frame's offset in its buffer | a FIX message at log position 10 whose frame starts at buffer offset 0 is indexed with position 0 (`ReplayIndexing.AsWrittenStoresBufferOffset`) | the record holds the frame's log `position`, which the method receives and never uses | not executed; high | `ReplayIndexing.IndexRecordAsWritten` | `ReplayIndexing.IndexRecord` |
| fix-gateway-core/src/main/java/uk/co/real_logic/fix_gateway/replication/Candidate.java:240-246 | `startElection`, which the timeout restart uses, adds the self-vote to the votes already held; only stepping down to follower clears them | five nodes: node 2's FOR vote from term 1 survives the restart, and node 3's FOR vote in term 2 then elects node 1, although only nodes 1 and 3 voted in term 2 (`CandidateRole.StaleVoteElects`) | a restart counts only votes cast in the new term, as a raft election requires | not executed; medium | `CandidateRole.CheckConditionsAsWritten` | `CandidateRole.CheckConditions` |
| fix-gateway-core/src/main/java/uk/co/real_logic/fix_gateway/replication/Candidate.java:230-238 | `startNewElection` also goes through `startElection`, and winning an election does not clear `votesFor`, so a candidate reused for a later election keeps the votes that elected it. Reuse depends on the cluster node keeping one `Candidate` object across elections; that caller is not part of this model | a five-node candidate elected in term 1 by nodes 2 and 3 starts a new election and is elected in term 2 by node 4's vote alone (`CandidateRole.WonVotesCarryIntoNewElection`) | a new election counts only votes cast in its term | not executed; low | `CandidateRole.StartNewElectionAsWritten` | `CandidateRole.StartNewElection` |

=== FILE: archive_reader.dfy ===
/** Reading frames and raw blocks back out of the archived log of one
    stream. Each session's log is a set of term segments keyed by term id;
    a position is resolved to a segment and an offset with the session's
    initial term id and term length, captured once from the archive
    metadata. Handler invocations are returned, in order, as events. */
module ArchiveReading {
  import opened JavaInts
  import opened Options
  import opened LogPositions

  /** The session has no metadata in the archive. */
  const UNKNOWN_SESSION: int64 := -1
  /** The position's term segment does not exist for this session. */
  const UNKNOWN_TERM: int32 := -2
  /** Nothing has been written at the position yet. */
  const NO_MESSAGE: int64 := -3

  /** Length of an Aeron data frame header; a frame's body follows it. */
  const HEADER_LENGTH: int32 := 32
  /** Size of the frame-length word that opens a frame header. */
  const FRAME_LENGTH_SIZE: int := 4

  /** A mapped term segment: its capacity in bytes, and the frame-length
      word stored at each header offset. Words never written read as 0. */
  datatype Segment = Segment(capacity: nat32, frameLengthWords: map<int, int32>)

  /** A session's archive metadata. */
  datatype MetaData = MetaData(initialTermId: int32, termBufferLength: int32)

  /** What is on disk for the stream: metadata per session, and per session
      its term segments by term id. */
  datatype Archive = Archive(metaData: map<int32, MetaData>, segments: map<int32, map<int32, Segment>>)

  /** A per-session reader; its term arithmetic is fixed at construction. */
  datatype SessionReader = SessionReader(sessionId: int32, initialTermId: int32, positionBitsToShift: nat)

  /** The readers created so far, by session id. */
  datatype ArchiveReader = ArchiveReader(readers: map<int32, SessionReader>)

  /** A fragment handler call: the body's term offset and length, and the
      position of the frame (which the handler's header describes). */
  datatype Fragment = Fragment(position: int64, termOffset: int32, length: int32)

  /** A block handler call. */
  datatype Block = Block(termOffset: int32, length: int32, sessionId: int32, termId: int32)

  /** A read returns a position or sentinel, or throws because the frame
      header lies outside the segment (the bounds-checked buffer refuses
      the read). Either way, the handler calls made before. */
  datatype ReadResult =
    | Returned(value: int64, fragments: seq<Fragment>)
    | HeaderOutOfBounds(fragments: seq<Fragment>)

  /** The segments of one session. */
  function SegmentsOf(archive: Archive, sessionId: int32): map<int32, Segment>
  {
    if sessionId in archive.segments then archive.segments[sessionId] else map[]
  }

  /** No frame-length word is negative: frames never point backwards. */
  predicate NoNegativeFrameLengths(segments: map<int32, Segment>)
  {
    forall t, h :: t in segments && h in segments[t].frameLengthWords ==> segments[t].frameLengthWords[h] >= 0
  }

  predicate WellFormed(archive: Archive)
  {
    forall s :: s in archive.segments ==> NoNegativeFrameLengths(archive.segments[s])
  }

  function TermId(r: SessionReader, position: int64): int32
  {
    TermIdFromPosition(position, r.positionBitsToShift, r.initialTermId)
  }

  function TermOffset(r: SessionReader, position: int64): int32
  {
    TermOffsetFromPosition(position, r.positionBitsToShift)
  }

  /** Locates `position`: its term offset, or UNKNOWN_TERM when its segment
      does not exist. */
  function Scan(r: SessionReader, segments: map<int32, Segment>, position: int64): (termOffset: int32)
    ensures TermId(r, position) !in segments ==> termOffset == UNKNOWN_TERM
    ensures TermId(r, position) in segments ==> termOffset == TermOffset(r, position)
  {
    if TermId(r, position) !in segments then UNKNOWN_TERM else TermOffset(r, position)
  }

  /** The frame header sits just before the body. */
  function HeaderOffset(termOffset: int32): int32
  {
    Wrap32(termOffset - HEADER_LENGTH)
  }

  /** The bounds-checked read of the frame-length word at `headerOffset`. */
  function FrameLength(segment: Segment, headerOffset: int32): (r: Option<int32>)
    ensures r.Some? <==> 0 <= headerOffset && headerOffset + FRAME_LENGTH_SIZE <= segment.capacity
    ensures r.Some? && headerOffset !in segment.frameLengthWords ==> r.value == 0
    ensures r.Some? && headerOffset in segment.frameLengthWords ==> r.value == segment.frameLengthWords[headerOffset]
  {
    if 0 <= headerOffset && headerOffset + FRAME_LENGTH_SIZE <= segment.capacity then
      Some(if headerOffset in segment.frameLengthWords then segment.frameLengthWords[headerOffset] else 0)
    else None
  }

  /** What scanning a position finds. */
  datatype Probe = NoTerm | OutOfBounds | Empty | Frame(termOffset: int32, frameLength: int32)

  function ProbeAt(r: SessionReader, segments: map<int32, Segment>, position: int64): (p: Probe)
    ensures p.NoTerm? <==> Scan(r, segments, position) == UNKNOWN_TERM
    ensures !p.NoTerm? ==> TermId(r, position) in segments
    ensures p.Frame? ==> p.termOffset == TermOffset(r, position) && p.frameLength != 0
    ensures p.Frame? || p.Empty? ==>
      FrameLength(segments[TermId(r, position)], HeaderOffset(TermOffset(r, position)))
        == Some(if p.Frame? then p.frameLength else 0)
    ensures p.OutOfBounds? ==> FrameLength(segments[TermId(r, position)], HeaderOffset(TermOffset(r, position))).None?
  {
    var termOffset := Scan(r, segments, position);
    if termOffset == UNKNOWN_TERM then NoTerm
    else
      match FrameLength(segments[TermId(r, position)], HeaderOffset(termOffset))
      case None => OutOfBounds
      case Some(frameLength) => if frameLength == 0 then Empty else Frame(termOffset, frameLength)
  }

  /** The position just after a fragment's frame. */
  function NextPosition(f: Fragment): int64
  {
    Wrap64(f.position + f.length + HEADER_LENGTH)
  }

  /** The end check readUpTo applies: `position + bodyLength <= endPosition`
      in 64-bit arithmetic. */
  predicate EndsBy(f: Fragment, endPosition: int64)
  {
    Wrap64(f.position + f.length) <= endPosition
  }

  /** Reads the frame at `position`. */
  function SessionRead(r: SessionReader, segments: map<int32, Segment>, position: int64): (res: ReadResult)
    ensures TermId(r, position) !in segments ==> res == Returned(UNKNOWN_TERM, [])
    ensures ProbeAt(r, segments, position).NoTerm? ==> res == Returned(UNKNOWN_TERM, [])
    ensures ProbeAt(r, segments, position).Empty? ==> res == Returned(NO_MESSAGE, [])
    ensures ProbeAt(r, segments, position).OutOfBounds? <==> res.HeaderOutOfBounds?
    ensures res.HeaderOutOfBounds? ==> res.fragments == []
    ensures |res.fragments| <= 1
    ensures |res.fragments| == 1 <==> ProbeAt(r, segments, position).Frame?
    ensures |res.fragments| == 1 ==>
      var p := ProbeAt(r, segments, position);
      && res.fragments[0] == Fragment(position, p.termOffset, Wrap32(p.frameLength - HEADER_LENGTH))
      && res == Returned(Wrap64(position + p.frameLength), res.fragments)
      && (p.frameLength > 0 ==> res.value == NextPosition(res.fragments[0]))
  {
    match ProbeAt(r, segments, position)
    case NoTerm => Returned(UNKNOWN_TERM, [])
    case OutOfBounds => HeaderOutOfBounds([])
    case Empty => Returned(NO_MESSAGE, [])
    case Frame(termOffset, frameLength) =>
      Returned(Wrap64(position + frameLength), [Fragment(position, termOffset, Wrap32(frameLength - HEADER_LENGTH))])
  }

  /** Adds an earlier handler call in front of a result. */
  function Prepend(f: Fragment, res: ReadResult): (r: ReadResult)
    ensures r.fragments == [f] + res.fragments
    ensures r.Returned? <==> res.Returned?
    ensures r.Returned? ==> r.value == res.value
  {
    match res
    case Returned(value, fs) => Returned(value, [f] + fs)
    case HeaderOutOfBounds(fs) => HeaderOutOfBounds([f] + fs)
  }

  /** The position a run of fragments starting at `position` ends at. */
  function Reached(position: int64, fs: seq<Fragment>): int64
  {
    if |fs| == 0 then position else NextPosition(fs[|fs| - 1])
  }

  /** Another frame can be taken at `position` without passing `endPosition`. */
  predicate Continues(r: SessionReader, segments: map<int32, Segment>, position: int64, endPosition: int64)
  {
    var rd := SessionRead(r, segments, position);
    rd.Returned? && |rd.fragments| == 1 && EndsBy(rd.fragments[0], endPosition)
  }

  /** One turn of readUpTo's loop at a non-negative position. */
  datatype LoopTurn = Stop | Throw | Take(fragment: Fragment, next: int64)

  /** Scans `position`: stops when there is no segment or no frame yet, or
      when the frame's body would end beyond `endPosition`; throws when the
      header is out of bounds; otherwise hands the frame over and moves to
      the position after it. */
  function Turn(r: SessionReader, segments: map<int32, Segment>, position: int64, endPosition: int64)
    : (t: LoopTurn)
    requires NoNegativeFrameLengths(segments)
    requires 0 <= position
    ensures t.Take? <==> Continues(r, segments, position, endPosition)
    ensures t.Throw? <==> SessionRead(r, segments, position).HeaderOutOfBounds?
    ensures t.Take? ==>
      && t.fragment.position == position
      && t.next == NextPosition(t.fragment)
      && SessionRead(r, segments, position) == Returned(t.next, [t.fragment])
      && EndsBy(t.fragment, endPosition)
      && (t.next < 0 || position < t.next)
      && t.fragment.length >= -HEADER_LENGTH
      && t.next == Wrap64(position + t.fragment.length + HEADER_LENGTH)
  {
    match ProbeAt(r, segments, position)
    case Frame(termOffset, frameLength) =>
      var bodyLength := Wrap32(frameLength - HEADER_LENGTH);
      var messageEnd := Wrap64(position + bodyLength);
      if messageEnd > endPosition then Stop
      else
        FrameStepsForward(r, segments, position);
        Take(Fragment(position, termOffset, bodyLength), Wrap64(position + frameLength))
    case OutOfBounds => Throw
    case _ => Stop
  }

  /** With no negative frame-length words, a frame found is a whole frame
      and the position after it is past it, unless the `long` wraps. */
  lemma FrameStepsForward(r: SessionReader, segments: map<int32, Segment>, position: int64)
    requires NoNegativeFrameLengths(segments)
    requires 0 <= position && ProbeAt(r, segments, position).Frame?
    ensures var p := ProbeAt(r, segments, position);
      && p.frameLength > 0
      && Wrap32(p.frameLength - HEADER_LENGTH) == p.frameLength - HEADER_LENGTH
      && var next := Wrap64(position + p.frameLength);
         && next == NextPosition(Fragment(position, p.termOffset, Wrap32(p.frameLength - HEADER_LENGTH)))
         && (next < 0 || position < next)
  {
    var seg := segments[TermId(r, position)];
    var h := HeaderOffset(TermOffset(r, position));
    assert h in seg.frameLengthWords ==> seg.frameLengthWords[h] >= 0;
    var fl := ProbeAt(r, segments, position).frameLength;
    if position + fl > INT64_MAX {
      assert Wrap64(position + fl) == position + fl - TWO_64;
    }
  }

  /** Reads consecutive frames from `position` while each fits by
      `endPosition`, returning the position after the last one taken. */
  function SessionReadUpTo(r: SessionReader, segments: map<int32, Segment>, position: int64, endPosition: int64)
    : (res: ReadResult)
    requires NoNegativeFrameLengths(segments)
    ensures |res.fragments| > 0 ==> res.fragments[0].position == position
    ensures res.Returned? ==> res.value == Reached(position, res.fragments)
    decreases if position < 0 then 0 else INT64_MAX + 1 - position
  {
    if position < 0 then Returned(position, [])
    else
      match Turn(r, segments, position, endPosition)
      case Stop => Returned(position, [])
      case Throw => HeaderOutOfBounds([])
      case Take(f, next) => Prepend(f, SessionReadUpTo(r, segments, next, endPosition))
  }

  /** Each fragment is what a single read at its position hands over, and
      passes the end check. */
  predicate AreReads(r: SessionReader, segments: map<int32, Segment>, fs: seq<Fragment>, endPosition: int64)
  {
    forall i :: 0 <= i < |fs| ==>
      && 0 <= fs[i].position
      && SessionRead(r, segments, fs[i].position) == Returned(NextPosition(fs[i]), [fs[i]])
      && EndsBy(fs[i], endPosition)
  }

  /** Each frame starts where the previous one ended. */
  predicate IsChain(fs: seq<Fragment>)
  {
    forall i :: 0 <= i < |fs| - 1 ==> fs[i + 1].position == NextPosition(fs[i])
  }

  lemma AreReadsCons(r: SessionReader, segments: map<int32, Segment>, f: Fragment, rest: seq<Fragment>, endPosition: int64)
    requires 0 <= f.position && EndsBy(f, endPosition)
    requires SessionRead(r, segments, f.position) == Returned(NextPosition(f), [f])
    requires AreReads(r, segments, rest, endPosition)
    ensures AreReads(r, segments, [f] + rest, endPosition)
  {
    var fs := [f] + rest;
    forall i | 0 <= i < |fs|
      ensures && 0 <= fs[i].position
              && SessionRead(r, segments, fs[i].position) == Returned(NextPosition(fs[i]), [fs[i]])
              && EndsBy(fs[i], endPosition)
    {
      if i > 0 { assert fs[i] == rest[i - 1]; }
    }
  }

  lemma IsChainCons(f: Fragment, rest: seq<Fragment>)
    requires IsChain(rest)
    requires |rest| > 0 ==> rest[0].position == NextPosition(f)
    ensures IsChain([f] + rest)
  {
    var fs := [f] + rest;
    forall i | 0 <= i < |fs| - 1
      ensures fs[i + 1].position == NextPosition(fs[i])
    {
      assert fs[i + 1] == rest[i];
      if i > 0 { assert fs[i] == rest[i - 1]; }
    }
  }

  /** Every handler call readUpTo makes is exactly the one a single read
      makes at that position, and passes the end check. */
  lemma {:induction false} ReadUpToFragmentsAreReads(
    r: SessionReader, segments: map<int32, Segment>, position: int64, endPosition: int64)
    requires NoNegativeFrameLengths(segments)
    ensures AreReads(r, segments, SessionReadUpTo(r, segments, position, endPosition).fragments, endPosition)
    decreases if position < 0 then 0 else INT64_MAX + 1 - position
  {
    if position >= 0 && Turn(r, segments, position, endPosition).Take? {
      var t := Turn(r, segments, position, endPosition);
      ReadUpToFragmentsAreReads(r, segments, t.next, endPosition);
      AreReadsCons(r, segments, t.fragment, SessionReadUpTo(r, segments, t.next, endPosition).fragments, endPosition);
    }
  }

  /** The fragments of readUpTo form a chain. */
  lemma {:induction false} ReadUpToIsChain(
    r: SessionReader, segments: map<int32, Segment>, position: int64, endPosition: int64)
    requires NoNegativeFrameLengths(segments)
    ensures IsChain(SessionReadUpTo(r, segments, position, endPosition).fragments)
    decreases if position < 0 then 0 else INT64_MAX + 1 - position
  {
    if position >= 0 && Turn(r, segments, position, endPosition).Take? {
      var t := Turn(r, segments, position, endPosition);
      ReadUpToIsChain(r, segments, t.next, endPosition);
      IsChainCons(t.fragment, SessionReadUpTo(r, segments, t.next, endPosition).fragments);
    }
  }

  /** readUpTo stops only where no further frame fits: at the position it
      returns no frame can be taken by `endPosition`, and when it throws,
      the frame header at the position reached is outside its segment. */
  lemma {:induction false} ReadUpToIsMaximal(
    r: SessionReader, segments: map<int32, Segment>, position: int64, endPosition: int64)
    requires NoNegativeFrameLengths(segments)
    ensures var res := SessionReadUpTo(r, segments, position, endPosition);
      && (res.Returned? && res.value >= 0 ==> !Continues(r, segments, res.value, endPosition))
      && (res.HeaderOutOfBounds? ==>
            0 <= Reached(position, res.fragments)
            && SessionRead(r, segments, Reached(position, res.fragments)).HeaderOutOfBounds?)
    decreases if position < 0 then 0 else INT64_MAX + 1 - position
  {
    if position >= 0 && Turn(r, segments, position, endPosition).Take? {
      var t := Turn(r, segments, position, endPosition);
      ReadUpToIsMaximal(r, segments, t.next, endPosition);
      var rest := SessionReadUpTo(r, segments, t.next, endPosition);
      if |rest.fragments| > 0 {
        assert Reached(position, [t.fragment] + rest.fragments) == Reached(t.next, rest.fragments);
      }
    }
  }

  /** Positions below this leave room for a frame of any `int` length
      without 64-bit overflow. */
  const SAFE_POSITION_LIMIT: int := INT64_MAX - INT32_MAX - HEADER_LENGTH

  /** Each fragment ends by `endPosition` and the next frame starts right
      after its body, in exact arithmetic. */
  predicate EndsExactlyBy(fs: seq<Fragment>, endPosition: int64)
  {
    forall i :: 0 <= i < |fs| ==>
      && fs[i].position + fs[i].length <= endPosition
      && NextPosition(fs[i]) == fs[i].position + fs[i].length + HEADER_LENGTH
  }

  lemma EndsExactlyByCons(f: Fragment, rest: seq<Fragment>, endPosition: int64)
    requires f.position + f.length <= endPosition
    requires NextPosition(f) == f.position + f.length + HEADER_LENGTH
    requires EndsExactlyBy(rest, endPosition)
    ensures EndsExactlyBy([f] + rest, endPosition)
  {
    var fs := [f] + rest;
    forall i | 0 <= i < |fs|
      ensures && fs[i].position + fs[i].length <= endPosition
              && NextPosition(fs[i]) == fs[i].position + fs[i].length + HEADER_LENGTH
    {
      if i > 0 { assert fs[i] == rest[i - 1]; }
    }
  }

  /** Away from the top of the `long` range, readUpTo never moves backwards
      and stops at most one frame header beyond `endPosition`; every frame
      it hands over really ends by `endPosition`. */
  lemma {:induction false} ReadUpToStaysInRange(
    r: SessionReader, segments: map<int32, Segment>, position: int64, endPosition: int64)
    requires NoNegativeFrameLengths(segments)
    requires 0 <= position <= SAFE_POSITION_LIMIT && endPosition + HEADER_LENGTH <= SAFE_POSITION_LIMIT
    ensures var res := SessionReadUpTo(r, segments, position, endPosition);
      && EndsExactlyBy(res.fragments, endPosition)
      && (res.Returned? ==> position <= res.value)
      && (res.Returned? && |res.fragments| > 0 ==> res.value <= endPosition + HEADER_LENGTH)
    decreases INT64_MAX + 1 - position
  {
    if Turn(r, segments, position, endPosition).Take? {
      var t := Turn(r, segments, position, endPosition);
      var f := t.fragment;
      assert f.position + f.length <= endPosition;
      assert t.next == position + f.length + HEADER_LENGTH;
      ReadUpToStaysInRange(r, segments, t.next, endPosition);
      var rest := SessionReadUpTo(r, segments, t.next, endPosition);
      EndsExactlyByCons(f, rest.fragments, endPosition);
    }
  }

  /** Reads up to `requestedLength` raw bytes at `position`, clamped to the
      end of the segment; fails only when the segment does not exist. */
  function SessionReadBlock(r: SessionReader, segments: map<int32, Segment>, position: int64, requestedLength: int32)
    : (res: (bool, seq<Block>))
    ensures res.0 <==> TermId(r, position) in segments
    ensures !res.0 ==> res.1 == []
    ensures res.0 ==>
      && |res.1| == 1
      && res.1[0].termId == TermId(r, position)
      && res.1[0].termOffset == TermOffset(r, position)
      && res.1[0].sessionId == r.sessionId
      && res.1[0].length <= requestedLength
    ensures res.0 && 0 <= TermOffset(r, position) ==>
      var capacity := segments[TermId(r, position)].capacity;
      var b := res.1[0];
      && b.termOffset + b.length <= capacity
      && (requestedLength <= capacity - b.termOffset ==> b.length == requestedLength)
      && (requestedLength > capacity - b.termOffset ==> b.length == capacity - b.termOffset)
  {
    var termId := TermId(r, position);
    if termId !in segments then (false, [])
    else
      var termOffset := TermOffset(r, position);
      var remainder := Wrap32(segments[termId].capacity - termOffset);
      var length := if requestedLength < remainder then requestedLength else remainder;
      (true, [Block(termOffset, length, r.sessionId, termId)])
  }

  /** A reader for a session with metadata, built from that metadata. */
  function NewSessionReader(archive: Archive, sessionId: int32): (r: Option<SessionReader>)
    ensures r.None? <==> sessionId !in archive.metaData
    ensures r.Some? ==>
      && r.value.sessionId == sessionId
      && r.value.initialTermId == archive.metaData[sessionId].initialTermId
      && r.value.positionBitsToShift == TrailingZeros(archive.metaData[sessionId].termBufferLength)
  {
    if sessionId !in archive.metaData then None
    else
      var md := archive.metaData[sessionId];
      Some(SessionReader(sessionId, md.initialTermId, TrailingZeros(md.termBufferLength)))
  }

  /** A reader built from metadata with a power-of-two term length finds a
      non-negative position in term `initialTermId + position / termLength`,
      wrapped as an `int`, at offset `position % termLength`. */
  lemma NewReaderLocatesPositions(archive: Archive, sessionId: int32, position: int64)
    requires sessionId in archive.metaData
    requires var md := archive.metaData[sessionId];
      IsPowerOfTwo(md.termBufferLength) && md.termBufferLength <= 0x4000_0000
    requires 0 <= position
    ensures var md := archive.metaData[sessionId];
      var r := NewSessionReader(archive, sessionId).value;
      && TermId(r, position) == Wrap32(md.initialTermId + position / md.termBufferLength)
      && TermOffset(r, position) == position % md.termBufferLength
  {
    var md := archive.metaData[sessionId];
    TermIdOfPowerOfTwo(position, md.termBufferLength, md.initialTermId);
    TermOffsetOfPowerOfTwo(position, md.termBufferLength);
  }

  /** The session's reader: the one already made, else a new one from the
      metadata, kept for later; no reader when there is no metadata. */
  function Session(reader: ArchiveReader, archive: Archive, sessionId: int32): (r: (ArchiveReader, Option<SessionReader>))
    ensures r.1.Some? <==> sessionId in reader.readers || sessionId in archive.metaData
    ensures sessionId in reader.readers ==> r == (reader, Some(reader.readers[sessionId]))
    ensures sessionId !in reader.readers ==> r.1 == NewSessionReader(archive, sessionId)
    ensures r.1.Some? ==> sessionId in r.0.readers && r.0.readers[sessionId] == r.1.value
    ensures r.1.None? ==> r.0 == reader
    ensures forall s :: s in reader.readers ==> s in r.0.readers && r.0.readers[s] == reader.readers[s]
    ensures r.0.readers.Keys <= reader.readers.Keys + {sessionId}
  {
    if sessionId in reader.readers then (reader, Some(reader.readers[sessionId]))
    else
      match NewSessionReader(archive, sessionId)
      case None => (reader, None)
      case Some(sr) => (ArchiveReader(reader.readers[sessionId := sr]), Some(sr))
  }

  function Read(reader: ArchiveReader, archive: Archive, sessionId: int32, position: int64): (r: (ArchiveReader, ReadResult))
    ensures r.0 == Session(reader, archive, sessionId).0
    ensures Session(reader, archive, sessionId).1.None? ==> r.1 == Returned(UNKNOWN_SESSION, [])
    ensures Session(reader, archive, sessionId).1.Some? ==>
      r.1 == SessionRead(Session(reader, archive, sessionId).1.value, SegmentsOf(archive, sessionId), position)
  {
    var (reader', sr) := Session(reader, archive, sessionId);
    match sr
    case None => (reader', Returned(UNKNOWN_SESSION, []))
    case Some(s) => (reader', SessionRead(s, SegmentsOf(archive, sessionId), position))
  }

  function ReadUpTo(reader: ArchiveReader, archive: Archive, sessionId: int32, beginPosition: int64, endPosition: int64)
    : (r: (ArchiveReader, ReadResult))
    requires WellFormed(archive)
    ensures r.0 == Session(reader, archive, sessionId).0
    ensures Session(reader, archive, sessionId).1.None? ==> r.1 == Returned(UNKNOWN_SESSION, [])
    ensures Session(reader, archive, sessionId).1.Some? ==>
      r.1 == SessionReadUpTo(Session(reader, archive, sessionId).1.value, SegmentsOf(archive, sessionId),
                             beginPosition, endPosition)
  {
    var (reader', sr) := Session(reader, archive, sessionId);
    match sr
    case None => (reader', Returned(UNKNOWN_SESSION, []))
    case Some(s) => (reader', SessionReadUpTo(s, SegmentsOf(archive, sessionId), beginPosition, endPosition))
  }

  function ReadBlock(reader: ArchiveReader, archive: Archive, sessionId: int32, position: int64, length: int32)
    : (r: (ArchiveReader, (bool, seq<Block>)))
    ensures r.0 == Session(reader, archive, sessionId).0
    ensures Session(reader, archive, sessionId).1.None? ==> r.1 == (false, [])
    ensures Session(reader, archive, sessionId).1.Some? ==>
      r.1 == SessionReadBlock(Session(reader, archive, sessionId).1.value, SegmentsOf(archive, sessionId), position, length)
  {
    var (reader', sr) := Session(reader, archive, sessionId);
    match sr
    case None => (reader', (false, []))
    case Some(s) => (reader', SessionReadBlock(s, SegmentsOf(archive, sessionId), position, length))
  }

  /** An unknown session yields the sentinels and no handler call, from
      every read operation. */
  lemma UnknownSessionReadsNothing(reader: ArchiveReader, archive: Archive, sessionId: int32,
                                   position: int64, endPosition: int64, length: int32)
    requires WellFormed(archive)
    requires sessionId !in reader.readers && sessionId !in archive.metaData
    ensures Read(reader, archive, sessionId, position).1 == Returned(UNKNOWN_SESSION, [])
    ensures ReadUpTo(reader, archive, sessionId, position, endPosition).1 == Returned(UNKNOWN_SESSION, [])
    ensures ReadBlock(reader, archive, sessionId, position, length).1 == (false, [])
    ensures Read(reader, archive, sessionId, position).0 == reader
  {
  }

  /** A read request against the archive. */
  datatype Request =
    | ReadRequest(sessionId: int32, position: int64)
    | ReadUpToRequest(sessionId: int32, beginPosition: int64, endPosition: int64)
    | ReadBlockRequest(sessionId: int32, position: int64, length: int32)

  function Serve(reader: ArchiveReader, archive: Archive, request: Request): ArchiveReader
    requires WellFormed(archive)
  {
    match request
    case ReadRequest(s, p) => Read(reader, archive, s, p).0
    case ReadUpToRequest(s, b, e) => ReadUpTo(reader, archive, s, b, e).0
    case ReadBlockRequest(s, p, l) => ReadBlock(reader, archive, s, p, l).0
  }

  /** Serves requests in order, the archive as it is at each request. */
  function ServeAll(reader: ArchiveReader, archives: seq<Archive>, requests: seq<Request>): ArchiveReader
    requires |archives| == |requests|
    requires forall i :: 0 <= i < |archives| ==> WellFormed(archives[i])
    decreases |requests|
  {
    if |requests| == 0 then reader
    else ServeAll(Serve(reader, archives[0], requests[0]), archives[1..], requests[1..])
  }

  /** Once a session has a reader, no later request replaces it, whatever
      happens to the metadata meanwhile. */
  lemma {:induction false} ReadersAreNeverReplaced(
    reader: ArchiveReader, archives: seq<Archive>, requests: seq<Request>, sessionId: int32)
    requires |archives| == |requests|
    requires forall i :: 0 <= i < |archives| ==> WellFormed(archives[i])
    requires sessionId in reader.readers
    ensures sessionId in ServeAll(reader, archives, requests).readers
    ensures ServeAll(reader, archives, requests).readers[sessionId] == reader.readers[sessionId]
    decreases |requests|
  {
    if |requests| > 0 {
      var next := Serve(reader, archives[0], requests[0]);
      assert sessionId in next.readers && next.readers[sessionId] == reader.readers[sessionId];
      ReadersAreNeverReplaced(next, archives[1..], requests[1..], sessionId);
    }
  }

  /** A session's reader keeps the initial term id and term length of the
      metadata found when it was first read, through any later requests. */
  lemma ReaderKeepsFirstMetaData(
    reader: ArchiveReader, archive: Archive, first: Request,
    archives: seq<Archive>, requests: seq<Request>)
    requires WellFormed(archive)
    requires |archives| == |requests|
    requires forall i :: 0 <= i < |archives| ==> WellFormed(archives[i])
    requires first.sessionId !in reader.readers && first.sessionId in archive.metaData
    ensures var final := ServeAll(Serve(reader, archive, first), archives, requests);
      && first.sessionId in final.readers
      && final.readers[first.sessionId].initialTermId == archive.metaData[first.sessionId].initialTermId
      && final.readers[first.sessionId].positionBitsToShift
           == TrailingZeros(archive.metaData[first.sessionId].termBufferLength)
  {
    var next := Serve(reader, archive, first);
    assert first.sessionId in next.readers;
    ReadersAreNeverReplaced(next, archives, requests, first.sessionId);
  }
}

=== FILE: candidate.dfy ===
/** The Candidate raft role: a node contesting an election. Every handler is
    a pure transition from the candidate and the shared term state to an
    action, the new candidate and term state, and the effects it emits in
    order (publications, node-state notifications, role changes). */
module CandidateRole {
  import opened JavaInts
  import opened Options
  import opened TermStates

  datatype Vote = FOR | AGAINST

  /** What a control-message handler tells the poll loop: keep draining the
      batch, or stop because the role has changed. */
  datatype Action = CONTINUE | BREAK

  /** The vote a follower starts with; `NoOne` is the follower's NO_ONE. */
  datatype VotedFor = NoOne | VotedFor(nodeId: int16)

  datatype Effect =
    /** A ReplyVote published on the control stream. */
    | ReplyVote(senderId: int16, candidateId: int16, term: int32, vote: Vote)
    /** A RequestVote published on the control stream. */
    | RequestVote(candidateId: int16, candidateSessionId: int32, lastAckedPosition: int64, term: int32)
    /** The node-state blob of a counted voter handed to the node-state handler. */
    | NewNodeState(senderId: int16)
    /** The cluster agent is told to make this node a follower. */
    | BecomeFollower(votedFor: VotedFor, timeInMs: int64)
    /** The cluster agent is told to make this node the leader. */
    | BecomeLeader(timeInMs: int64)

  /** A role change requested of the cluster agent. */
  predicate IsRoleChange(e: Effect)
  {
    e.BecomeFollower? || e.BecomeLeader?
  }

  /** The candidate's own state. `keepAliveMs` is the last time the vote
      timeout was kept alive; when it fires is decided by a jittered timer
      that the model receives as an oracle. */
  datatype Candidate = Candidate(
    nodeId: int16,
    sessionId: int32,
    clusterSize: int32,
    votesFor: set<int16>,
    leaderShipTerm: int32,
    timeInMs: int64,
    keepAliveMs: int64)

  datatype Step = Step(action: Action, candidate: Candidate, termState: TermState, effects: seq<Effect>)

  /** The acknowledgement strategy's quorum decision: votes collected and
      cluster size to "elected". */
  type QuorumRule = (int, int) -> bool

  /** A new candidate: no votes, term 0, timers at time 0. */
  function NewCandidate(nodeId: int16, sessionId: int32, clusterSize: int32): (c: Candidate)
    ensures c.votesFor == {} && c.leaderShipTerm == 0
    ensures c.nodeId == nodeId && c.sessionId == sessionId && c.clusterSize == clusterSize
  {
    Candidate(nodeId, sessionId, clusterSize, {}, 0, 0, 0)
  }

  /** The consensus position the candidate compares against. The source
      reads it from the term state's leader identity; the model reads the
      term state's own consensus position in its place. */
  function ConsensusPosition(ts: TermState): int64
  {
    ts.consensusPosition
  }

  /** Steps down: forgets the collected votes, moves every position to
      `position`, adopts the given leader and term, and asks the cluster
      agent for the follower role. */
  function TransitionToFollower(
    c: Candidate, ts: TermState, term: int32, votedFor: VotedFor, position: int64,
    leaderNodeId: int16, leaderSessionId: int32): (s: Step)
    ensures s.action == BREAK
    ensures s.candidate.votesFor == {}
    ensures s.candidate == c.(votesFor := {})
    ensures s.termState.receivedPosition == position
    ensures s.termState.lastAppliedPosition == position
    ensures s.termState.consensusPosition == position
    ensures s.termState.leaderPosition == Some(LeaderPosition(leaderNodeId, leaderSessionId))
    ensures s.termState.leadershipTerm == term
    ensures ts.SameOutside(s.termState, {ReceivedPositionField, LastAppliedPositionField,
                                         ConsensusPositionField, LeaderPositionField, LeadershipTermField})
    ensures s.effects == [BecomeFollower(votedFor, c.timeInMs)]
  {
    var ts' := ts.AllPositions(position)
                 .SetLeaderPosition(Some(LeaderPosition(leaderNodeId, leaderSessionId)))
                 .SetLeadershipTerm(term);
    Step(BREAK, c.(votesFor := {}), ts', [BecomeFollower(votedFor, c.timeInMs)])
  }

  /** The log-completeness rule for granting a vote: a strictly newer term
      from a requester whose log reaches the local consensus position. */
  predicate GrantsVote(c: Candidate, ts: TermState, term: int32, lastAckedPosition: int64)
  {
    term > c.leaderShipTerm && lastAckedPosition >= ConsensusPosition(ts)
  }

  function OnRequestVote(
    c: Candidate, ts: TermState,
    candidateId: int16, candidateSessionId: int32, term: int32, lastAckedPosition: int64): (s: Step)
    ensures s.action == BREAK <==> GrantsVote(c, ts, term, lastAckedPosition)
    ensures |s.effects| >= 1 && s.effects[0].ReplyVote?
    ensures s.effects[0] == ReplyVote(c.nodeId, candidateId, term,
                                      if GrantsVote(c, ts, term, lastAckedPosition) then FOR else AGAINST)
    ensures GrantsVote(c, ts, term, lastAckedPosition) ==>
      && s == TransitionToFollower(c, ts, term, VotedFor(candidateId), ConsensusPosition(ts),
                                   candidateId, candidateSessionId).(effects := s.effects)
      && s.effects[1..] == [BecomeFollower(VotedFor(candidateId), c.timeInMs)]
    ensures !GrantsVote(c, ts, term, lastAckedPosition) ==>
      s.candidate == c && s.termState == ts && |s.effects| == 1
  {
    if term > c.leaderShipTerm && lastAckedPosition >= ConsensusPosition(ts) then
      var reply := ReplyVote(c.nodeId, candidateId, term, FOR);
      var follow := TransitionToFollower(c, ts, term, VotedFor(candidateId), ConsensusPosition(ts),
                                         candidateId, candidateSessionId);
      follow.(effects := [reply] + follow.effects)
    else
      Step(CONTINUE, c, ts, [ReplyVote(c.nodeId, candidateId, term, AGAINST)])
  }

  /** Only a FOR vote for this node in its current term is eligible. */
  predicate ShouldCountVote(c: Candidate, candidateId: int16, term: int32, vote: Vote)
  {
    candidateId == c.nodeId && term == c.leaderShipTerm && vote == FOR
  }

  /** Records `voter`; reports whether it was new (the set's `add`). */
  function CountVote(c: Candidate, voter: int16): (r: (Candidate, bool))
    ensures r.0.votesFor == c.votesFor + {voter}
    ensures r.1 <==> voter !in c.votesFor
    ensures r.1 ==> |r.0.votesFor| == |c.votesFor| + 1
    ensures !r.1 ==> r.0 == c
  {
    if voter in c.votesFor then (c, false) else (c.(votesFor := c.votesFor + {voter}), true)
  }

  function OnReplyVote(
    c: Candidate, ts: TermState, isElected: QuorumRule,
    senderNodeId: int16, candidateId: int16, term: int32, vote: Vote): (s: Step)
    ensures !ShouldCountVote(c, candidateId, term, vote) || senderNodeId in c.votesFor ==>
      s == Step(CONTINUE, c, ts, [])
    ensures ShouldCountVote(c, candidateId, term, vote) && senderNodeId !in c.votesFor ==>
      && s.candidate == c.(votesFor := c.votesFor + {senderNodeId}, keepAliveMs := c.timeInMs)
      && |s.candidate.votesFor| == |c.votesFor| + 1
      && |s.effects| >= 1 && s.effects[0] == NewNodeState(senderNodeId)
      && (s.action == BREAK <==> isElected(|c.votesFor| + 1, c.clusterSize))
      && (s.action == BREAK ==>
            s.termState == ts.SetLeadershipTerm(term) && s.effects == [NewNodeState(senderNodeId), BecomeLeader(c.timeInMs)])
      && (s.action == CONTINUE ==> s.termState == ts && s.effects == [NewNodeState(senderNodeId)])
  {
    if ShouldCountVote(c, candidateId, term, vote) && senderNodeId !in c.votesFor then
      var (counted, _) := CountVote(c, senderNodeId);
      var c' := counted.(keepAliveMs := c.timeInMs);
      if isElected(|c'.votesFor|, c.clusterSize) then
        Step(BREAK, c', ts.SetLeadershipTerm(term), [NewNodeState(senderNodeId), BecomeLeader(c.timeInMs)])
      else
        Step(CONTINUE, c', ts, [NewNodeState(senderNodeId)])
    else
      Step(CONTINUE, c, ts, [])
  }

  /** A heartbeat the candidate yields to: from another node, at or beyond
      the local consensus position. Its term is not compared. */
  predicate YieldsTo(c: Candidate, ts: TermState, senderNodeId: int16, position: int64)
  {
    senderNodeId != c.nodeId && position >= ConsensusPosition(ts)
  }

  function OnConsensusHeartbeat(
    c: Candidate, ts: TermState,
    senderNodeId: int16, term: int32, position: int64, dataSessionId: int32): (s: Step)
    ensures s.action == BREAK <==> YieldsTo(c, ts, senderNodeId, position)
    ensures YieldsTo(c, ts, senderNodeId, position) ==>
      && s.candidate == c.(votesFor := {})
      && s.termState == ts.AllPositions(position)
                          .SetLeaderPosition(Some(LeaderPosition(senderNodeId, dataSessionId)))
                          .SetLeadershipTerm(term)
      && s.effects == [BecomeFollower(NoOne, c.timeInMs)]
    ensures !YieldsTo(c, ts, senderNodeId, position) ==> s == Step(CONTINUE, c, ts, [])
  {
    if senderNodeId != c.nodeId && position >= ConsensusPosition(ts) then
      TransitionToFollower(c, ts, term, NoOne, position, senderNodeId, dataSessionId)
    else
      Step(CONTINUE, c, ts, [])
  }

  /** Candidates ignore resends. */
  function OnResend(c: Candidate, ts: TermState, leaderSessionId: int32, term: int32, startPosition: int64): (s: Step)
    ensures s.action == CONTINUE && s.candidate == c && s.termState == ts && s.effects == []
  {
    Step(CONTINUE, c, ts, [])
  }

  /** Candidates ignore data acknowledgements. */
  function OnMessageAcknowledgement(c: Candidate, ts: TermState, ackedPosition: int64, senderNodeId: int16): (s: Step)
    ensures s.action == CONTINUE && s.candidate == c && s.termState == ts && s.effects == []
  {
    Step(CONTINUE, c, ts, [])
  }

  /** Candidates never read application data: no fragments are consumed. */
  function ReadData(c: Candidate): (fragmentsRead: int)
    ensures fragmentsRead == 0
  {
    0
  }

  /** `startElection` as written: keeps the vote timeout alive, increments
      the local term, votes for itself and requests votes, but keeps the
      votes already collected, whatever term they were cast in. */
  function StartElectionAsWritten(c: Candidate, ts: TermState, timeInMs: int64): (s: Step)
    ensures s.candidate.leaderShipTerm == Wrap32(c.leaderShipTerm + 1)
    ensures c.leaderShipTerm < INT32_MAX ==> s.candidate.leaderShipTerm == c.leaderShipTerm + 1
    ensures s.candidate.votesFor == c.votesFor + {c.nodeId}
    ensures s.candidate.keepAliveMs == timeInMs
    ensures s.candidate == c.(leaderShipTerm := s.candidate.leaderShipTerm, votesFor := s.candidate.votesFor,
                              keepAliveMs := timeInMs)
    ensures s.termState == ts
    ensures s.effects == [RequestVote(c.nodeId, c.sessionId, ConsensusPosition(ts), s.candidate.leaderShipTerm)]
  {
    var c1 := c.(keepAliveMs := timeInMs, leaderShipTerm := Wrap32(c.leaderShipTerm + 1));
    var (c2, _) := CountVote(c1, c.nodeId);
    Step(CONTINUE, c2, ts, [RequestVote(c.nodeId, c.sessionId, ConsensusPosition(ts), c2.leaderShipTerm)])
  }

  /** Starts an election in the next term as evidently intended: keeps the
      vote timeout alive, increments the local term, drops the votes of
      earlier terms, votes for itself and requests votes. */
  function StartElection(c: Candidate, ts: TermState, timeInMs: int64): (s: Step)
    ensures s.candidate.leaderShipTerm == Wrap32(c.leaderShipTerm + 1)
    ensures c.leaderShipTerm < INT32_MAX ==> s.candidate.leaderShipTerm == c.leaderShipTerm + 1
    ensures s.candidate.votesFor == {c.nodeId}
    ensures s.candidate.keepAliveMs == timeInMs
    ensures s.candidate == c.(leaderShipTerm := s.candidate.leaderShipTerm, votesFor := {c.nodeId},
                              keepAliveMs := timeInMs)
    ensures s.termState == ts
    ensures s.effects == [RequestVote(c.nodeId, c.sessionId, ConsensusPosition(ts), s.candidate.leaderShipTerm)]
  {
    StartElectionAsWritten(c.(votesFor := {}), ts, timeInMs)
  }

  /** `startNewElection` as written: takes the term from the term state and
      starts an election in the one after it through `startElection`, so
      the votes still held from an earlier election are kept. */
  function StartNewElectionAsWritten(c: Candidate, ts: TermState, timeInMs: int64): (s: Step)
    ensures s.candidate.leaderShipTerm == Wrap32(ts.leadershipTerm + 1)
    ensures s.candidate.votesFor == c.votesFor + {c.nodeId}
    ensures s.candidate == c.(leaderShipTerm := Wrap32(ts.leadershipTerm + 1), votesFor := c.votesFor + {c.nodeId},
                              keepAliveMs := timeInMs)
    ensures s.termState == ts
    ensures s.effects == [RequestVote(c.nodeId, c.sessionId, ConsensusPosition(ts), Wrap32(ts.leadershipTerm + 1))]
  {
    StartElectionAsWritten(c.(leaderShipTerm := ts.leadershipTerm), ts, timeInMs)
  }

  /** Takes the term from the term state and starts an election in the one
      after it, holding only the self-vote. */
  function StartNewElection(c: Candidate, ts: TermState, timeInMs: int64): (s: Step)
    ensures s.candidate.leaderShipTerm == Wrap32(ts.leadershipTerm + 1)
    ensures s.candidate.votesFor == {c.nodeId}
    ensures s.candidate == c.(leaderShipTerm := Wrap32(ts.leadershipTerm + 1), votesFor := {c.nodeId},
                              keepAliveMs := timeInMs)
    ensures s.termState == ts
    ensures s.effects == [RequestVote(c.nodeId, c.sessionId, ConsensusPosition(ts), Wrap32(ts.leadershipTerm + 1))]
  {
    StartElection(c.(leaderShipTerm := ts.leadershipTerm), ts, timeInMs)
  }

  /** `checkConditions` as written: when the vote timeout has fired
      (`hasTimedOut`, the jittered timer's verdict), restart the election,
      keeping the votes collected so far, and report 1. */
  function CheckConditionsAsWritten(c: Candidate, ts: TermState, timeInMs: int64, hasTimedOut: bool): (r: (int, Step))
    ensures r.0 == 1 <==> hasTimedOut
    ensures r.0 == 0 || r.0 == 1
    ensures hasTimedOut ==> r.1.candidate.leaderShipTerm == Wrap32(c.leaderShipTerm + 1)
    ensures hasTimedOut ==> r.1.candidate.votesFor == c.votesFor + {c.nodeId}
    ensures hasTimedOut ==> r.1.candidate.keepAliveMs == timeInMs && r.1.termState == ts
    ensures hasTimedOut ==>
      r.1.effects == [RequestVote(c.nodeId, c.sessionId, ConsensusPosition(ts), Wrap32(c.leaderShipTerm + 1))]
    ensures hasTimedOut ==> r.1 == StartElectionAsWritten(c, ts, timeInMs)
    ensures !hasTimedOut ==> r.1 == Step(CONTINUE, c, ts, [])
  {
    if hasTimedOut then (1, StartElectionAsWritten(c, ts, timeInMs)) else (0, Step(CONTINUE, c, ts, []))
  }

  /** The periodic check: when the vote timeout has fired, restart the
      election in the next term with only the self-vote, and report 1. */
  function CheckConditions(c: Candidate, ts: TermState, timeInMs: int64, hasTimedOut: bool): (r: (int, Step))
    ensures r.0 == 1 <==> hasTimedOut
    ensures r.0 == 0 || r.0 == 1
    ensures hasTimedOut ==> r.1.candidate.leaderShipTerm == Wrap32(c.leaderShipTerm + 1)
    ensures hasTimedOut ==> r.1.candidate.votesFor == {c.nodeId}
    ensures hasTimedOut ==> r.1.candidate.keepAliveMs == timeInMs && r.1.termState == ts
    ensures hasTimedOut ==>
      r.1.effects == [RequestVote(c.nodeId, c.sessionId, ConsensusPosition(ts), Wrap32(c.leaderShipTerm + 1))]
    ensures hasTimedOut ==> r.1 == StartElection(c, ts, timeInMs)
    ensures !hasTimedOut ==> r.1 == Step(CONTINUE, c, ts, [])
  {
    if hasTimedOut then (1, StartElection(c, ts, timeInMs)) else (0, Step(CONTINUE, c, ts, []))
  }

  /** The control messages a candidate handles. */
  datatype ControlMessage =
    | RequestVoteMessage(candidateId: int16, candidateSessionId: int32, term: int32, lastAckedPosition: int64)
    | ReplyVoteMessage(senderNodeId: int16, candidateId: int16, term: int32, vote: Vote)
    | ConsensusHeartbeatMessage(senderNodeId: int16, term: int32, position: int64, dataSessionId: int32)
    | ResendMessage(leaderSessionId: int32, term: int32, startPosition: int64)
    | MessageAcknowledgementMessage(ackedPosition: int64, senderNodeId: int16)

  /** Routes a control message to its handler. */
  function Handle(c: Candidate, ts: TermState, isElected: QuorumRule, m: ControlMessage): Step
  {
    match m
    case RequestVoteMessage(id, sid, term, acked) => OnRequestVote(c, ts, id, sid, term, acked)
    case ReplyVoteMessage(sender, id, term, vote) => OnReplyVote(c, ts, isElected, sender, id, term, vote)
    case ConsensusHeartbeatMessage(sender, term, position, sid) => OnConsensusHeartbeat(c, ts, sender, term, position, sid)
    case ResendMessage(sid, term, start) => OnResend(c, ts, sid, term, start)
    case MessageAcknowledgementMessage(acked, sender) => OnMessageAcknowledgement(c, ts, acked, sender)
  }

  /** Every handler returns BREAK exactly when it asks for a role change, the
      role change is its last effect, and a handler that returns CONTINUE
      leaves the term state alone. */
  lemma BreakIffRoleChange(c: Candidate, ts: TermState, isElected: QuorumRule, m: ControlMessage)
    ensures var s := Handle(c, ts, isElected, m);
      && (s.action == BREAK <==> exists i :: 0 <= i < |s.effects| && IsRoleChange(s.effects[i]))
      && (s.action == BREAK ==> IsRoleChange(s.effects[|s.effects| - 1]))
      && (s.action == CONTINUE ==> s.termState == ts)
  {
    var s := Handle(c, ts, isElected, m);
    if s.action == BREAK {
      assert IsRoleChange(s.effects[|s.effects| - 1]);
    } else {
      match m
      case RequestVoteMessage(_, _, _, _) =>
        assert |s.effects| == 1 && s.effects[0].ReplyVote?;
      case ReplyVoteMessage(_, _, _, _) =>
        assert forall i :: 0 <= i < |s.effects| ==> s.effects[i].NewNodeState?;
      case _ =>
    }
  }

  /** Election safety on the voting side: whatever the message, a FOR reply
      goes only to a requester with a newer term and a log that reaches the
      local consensus position, and a candidate never votes FOR anyone while
      handling anything but a RequestVote. */
  lemma NeverVotesForStaleLog(c: Candidate, ts: TermState, isElected: QuorumRule, m: ControlMessage)
    ensures var s := Handle(c, ts, isElected, m);
      forall i :: 0 <= i < |s.effects| && s.effects[i].ReplyVote? && s.effects[i].vote == FOR ==>
        && m.RequestVoteMessage?
        && m.term > c.leaderShipTerm
        && m.lastAckedPosition >= ts.consensusPosition
  {
    var s := Handle(c, ts, isElected, m);
    match m
    case RequestVoteMessage(_, _, _, _) =>
      assert forall i :: 1 <= i < |s.effects| ==> s.effects[i].BecomeFollower?;
    case ReplyVoteMessage(_, _, _, _) =>
      assert forall i :: 0 <= i < |s.effects| ==> !s.effects[i].ReplyVote?;
    case _ =>
  }

  /** A voter is counted at most once per candidacy: replaying a counted
      ReplyVote changes nothing and emits nothing. */
  lemma DuplicateVoteIgnored(c: Candidate, ts: TermState, isElected: QuorumRule,
                             sender: int16, candidateId: int16, term: int32, vote: Vote)
    requires ShouldCountVote(c, candidateId, term, vote)
    requires sender !in c.votesFor
    ensures var s := OnReplyVote(c, ts, isElected, sender, candidateId, term, vote);
      OnReplyVote(s.candidate, s.termState, isElected, sender, candidateId, term, vote)
        == Step(CONTINUE, s.candidate, s.termState, [])
  {
  }

  /** A simple-majority quorum, used by the scenarios below. */
  function Majority(votes: int, clusterSize: int): bool
  {
    votes > clusterSize / 2
  }

  /** Three nodes; node 1 starts an election from term 0 at consensus
      position 100 and node 2 votes FOR it: node 1 becomes leader of term 1. */
  lemma ElectedByMajorityScenario()
    ensures var ts := Fresh().SetConsensusPosition(100);
      var started := StartNewElection(NewCandidate(1, 11, 3), ts, 5);
      var replied := OnReplyVote(started.candidate, started.termState, Majority, 2, 1, 1, FOR);
      && started.effects == [RequestVote(1, 11, 100, 1)]
      && replied.action == BREAK
      && replied.termState.leadershipTerm == 1
      && replied.effects[|replied.effects| - 1].BecomeLeader?
  {
    var ts := Fresh().SetConsensusPosition(100);
    var started := StartNewElection(NewCandidate(1, 11, 3), ts, 5);
    assert started.candidate.votesFor == {1};
    assert |started.candidate.votesFor| == 1;
  }

  /** A candidate in term 2 at consensus position 500 refuses a term-3
      request whose log ends at 400, and stays a candidate. */
  lemma RefusesLaggingRequesterScenario()
    ensures var c := NewCandidate(1, 11, 3).(leaderShipTerm := 2);
      var ts := Fresh().SetConsensusPosition(500);
      OnRequestVote(c, ts, 3, 33, 3, 400) == Step(CONTINUE, c, ts, [ReplyVote(1, 3, 3, AGAINST)])
  {
  }

  /** A batch of control messages drained in order until a handler returns
      BREAK; the effects of every handled message, in order. */
  function HandleAll(c: Candidate, ts: TermState, isElected: QuorumRule, ms: seq<ControlMessage>): Step
    decreases |ms|
  {
    if |ms| == 0 then Step(CONTINUE, c, ts, [])
    else
      var s := Handle(c, ts, isElected, ms[0]);
      if s.action == BREAK then s
      else
        var rest := HandleAll(s.candidate, s.termState, isElected, ms[1..]);
        rest.(effects := s.effects + rest.effects)
  }

  /** Every role change in `effects` is stamped with time `t`. */
  predicate StampedWith(effects: seq<Effect>, t: int64)
  {
    forall i :: 0 <= i < |effects| && (effects[i].BecomeFollower? || effects[i].BecomeLeader?) ==>
      effects[i].timeInMs == t
  }

  /** One handler keeps the poll time, stamps its role changes with it, and
      keeps the vote timeout alive, if at all, at that time. */
  lemma HandleStampsTime(c: Candidate, ts: TermState, isElected: QuorumRule, m: ControlMessage)
    ensures var s := Handle(c, ts, isElected, m);
      && s.candidate.timeInMs == c.timeInMs
      && (s.candidate.keepAliveMs == c.keepAliveMs || s.candidate.keepAliveMs == c.timeInMs)
      && StampedWith(s.effects, c.timeInMs)
  {
  }

  /** `pollCommands`: records the time of this poll, then drains the batch
      of control messages until a handler returns BREAK. */
  function PollCommands(c: Candidate, ts: TermState, isElected: QuorumRule, timeInMs: int64, ms: seq<ControlMessage>)
    : (s: Step)
    ensures s.candidate.timeInMs == timeInMs
    ensures s.candidate.keepAliveMs == c.keepAliveMs || s.candidate.keepAliveMs == timeInMs
    ensures StampedWith(s.effects, timeInMs)
  {
    PollStampsTime(c.(timeInMs := timeInMs), ts, isElected, ms);
    HandleAll(c.(timeInMs := timeInMs), ts, isElected, ms)
  }

  /** Over a drained batch the poll time stays fixed, every role change
      carries it, and every keep-alive of the vote timeout is at that time. */
  lemma {:induction false} PollStampsTime(c: Candidate, ts: TermState, isElected: QuorumRule, ms: seq<ControlMessage>)
    ensures var s := HandleAll(c, ts, isElected, ms);
      && s.candidate.timeInMs == c.timeInMs
      && (s.candidate.keepAliveMs == c.keepAliveMs || s.candidate.keepAliveMs == c.timeInMs)
      && StampedWith(s.effects, c.timeInMs)
    decreases |ms|
  {
    if |ms| > 0 {
      var s := Handle(c, ts, isElected, ms[0]);
      HandleStampsTime(c, ts, isElected, ms[0]);
      if s.action != BREAK {
        PollStampsTime(s.candidate, s.termState, isElected, ms[1..]);
        var rest := HandleAll(s.candidate, s.termState, isElected, ms[1..]);
        assert HandleAll(c, ts, isElected, ms).effects == s.effects + rest.effects;
        forall i | 0 <= i < |s.effects + rest.effects|
          && ((s.effects + rest.effects)[i].BecomeFollower? || (s.effects + rest.effects)[i].BecomeLeader?)
          ensures (s.effects + rest.effects)[i].timeInMs == c.timeInMs
        {
          if i >= |s.effects| {
            assert (s.effects + rest.effects)[i] == rest.effects[i - |s.effects|];
          }
        }
      }
    }
  }

  /** The senders of the ReplyVotes in `ms` that vote FOR `nodeId` in `term`. */
  function EligibleVoters(nodeId: int16, term: int32, ms: seq<ControlMessage>): set<int16>
  {
    set i | 0 <= i < |ms| && ms[i].ReplyVoteMessage? && ms[i].candidateId == nodeId
                          && ms[i].term == term && ms[i].vote == FOR :: ms[i].senderNodeId
  }

  /** While a candidate stays a candidate its identity and term are fixed,
      and every vote it collects comes from a FOR ReplyVote for itself in
      its current term. */
  lemma {:induction false} VotesComeFromCurrentTerm(
    c: Candidate, ts: TermState, isElected: QuorumRule, ms: seq<ControlMessage>, earlier: set<int16>)
    requires c.votesFor <= {c.nodeId} + earlier
    ensures var s := HandleAll(c, ts, isElected, ms);
      && s.candidate.nodeId == c.nodeId
      && s.candidate.leaderShipTerm == c.leaderShipTerm
      && s.candidate.votesFor <= {c.nodeId} + earlier + EligibleVoters(c.nodeId, c.leaderShipTerm, ms)
    decreases |ms|
  {
    if |ms| > 0 {
      var s := Handle(c, ts, isElected, ms[0]);
      var now := EligibleVoters(c.nodeId, c.leaderShipTerm, ms[..1]);
      assert s.candidate.votesFor <= {c.nodeId} + earlier + now by {
        if ms[0].ReplyVoteMessage? && ShouldCountVote(c, ms[0].candidateId, ms[0].term, ms[0].vote)
           && ms[0].senderNodeId !in c.votesFor {
          assert ms[..1][0] == ms[0];
          assert ms[0].senderNodeId in now;
        }
      }
      if s.action != BREAK {
        VotesComeFromCurrentTerm(s.candidate, s.termState, isElected, ms[1..], earlier + now);
        forall v | v in now + EligibleVoters(c.nodeId, c.leaderShipTerm, ms[1..])
          ensures v in EligibleVoters(c.nodeId, c.leaderShipTerm, ms)
        {
          if v in now {
            var i :| 0 <= i < 1 && ms[..1][i].ReplyVoteMessage? && ms[..1][i].candidateId == c.nodeId
                     && ms[..1][i].term == c.leaderShipTerm && ms[..1][i].vote == FOR && ms[..1][i].senderNodeId == v;
            assert ms[i] == ms[..1][i];
          } else {
            var i :| 0 <= i < |ms[1..]| && ms[1..][i].ReplyVoteMessage? && ms[1..][i].candidateId == c.nodeId
                     && ms[1..][i].term == c.leaderShipTerm && ms[1..][i].vote == FOR && ms[1..][i].senderNodeId == v;
            assert ms[i + 1] == ms[1..][i];
          }
        }
      } else {
        forall v | v in now ensures v in EligibleVoters(c.nodeId, c.leaderShipTerm, ms) {
          assert ms[0] == ms[..1][0];
        }
      }
    }
  }

  /** After a restart, whatever the candidate then receives, the only votes
      it holds are its own and FOR votes cast in the new term. */
  lemma RestartCountsOnlyCurrentVotes(
    c: Candidate, ts: TermState, timeInMs: int64, isElected: QuorumRule, ms: seq<ControlMessage>)
    ensures var restarted := CheckConditions(c, ts, timeInMs, true).1;
      var s := HandleAll(restarted.candidate, restarted.termState, isElected, ms);
      s.candidate.votesFor <= {c.nodeId} + EligibleVoters(c.nodeId, restarted.candidate.leaderShipTerm, ms)
  {
    var restarted := CheckConditions(c, ts, timeInMs, true).1;
    VotesComeFromCurrentTerm(restarted.candidate, restarted.termState, isElected, ms, {});
  }

  /** As written, a restart keeps the votes of the previous term. Five nodes:
      node 1 collects node 2's vote in term 1, times out, and in term 2 a
      single FOR vote from node 3 completes a majority of three although
      only nodes 1 and 3 voted in term 2. */
  lemma StaleVoteElects()
    ensures var ts := Fresh();
      var started := StartNewElection(NewCandidate(1, 11, 5), ts, 0);
      var voted := OnReplyVote(started.candidate, started.termState, Majority, 2, 1, 1, FOR);
      var restarted := CheckConditionsAsWritten(voted.candidate, voted.termState, 10, true).1;
      var elected := OnReplyVote(restarted.candidate, restarted.termState, Majority, 3, 1, 2, FOR);
      && voted.action == CONTINUE
      && restarted.candidate.leaderShipTerm == 2
      && 2 in restarted.candidate.votesFor
      && elected.action == BREAK
      && elected.termState.leadershipTerm == 2
      && 2 !in EligibleVoters(1, 2, [ReplyVoteMessage(3, 1, 2, FOR)])
  {
    var ts := Fresh();
    var started := StartNewElection(NewCandidate(1, 11, 5), ts, 0);
    assert started.candidate.votesFor == {1};
    var voted := OnReplyVote(started.candidate, started.termState, Majority, 2, 1, 1, FOR);
    assert voted.candidate.votesFor == {1, 2};
    var restarted := CheckConditionsAsWritten(voted.candidate, voted.termState, 10, true).1;
    assert restarted.candidate.votesFor == {1, 2};
    assert |restarted.candidate.votesFor| == 2;
    var ms := [ReplyVoteMessage(3, 1, 2, FOR)];
    assert EligibleVoters(1, 2, ms) == {3} by {
      assert ms[0].senderNodeId == 3;
    }
  }

  /** With votes dropped on restart the same run does not elect node 1. */
  lemma RestartNeedsFreshMajority()
    ensures var ts := Fresh();
      var started := StartNewElection(NewCandidate(1, 11, 5), ts, 0);
      var voted := OnReplyVote(started.candidate, started.termState, Majority, 2, 1, 1, FOR);
      var restarted := CheckConditions(voted.candidate, voted.termState, 10, true).1;
      OnReplyVote(restarted.candidate, restarted.termState, Majority, 3, 1, 2, FOR).action == CONTINUE
  {
    var ts := Fresh();
    var started := StartNewElection(NewCandidate(1, 11, 5), ts, 0);
    var voted := OnReplyVote(started.candidate, started.termState, Majority, 2, 1, 1, FOR);
    var restarted := CheckConditions(voted.candidate, voted.termState, 10, true).1;
    assert restarted.candidate.votesFor == {1};
    assert restarted.candidate.leaderShipTerm == 2;
    assert |restarted.candidate.votesFor + {3}| == 2;
  }

  /** A new election as intended counts, whatever follows, only the self-vote
      and FOR votes cast in the new term. */
  lemma NewElectionCountsOnlyCurrentVotes(
    c: Candidate, ts: TermState, timeInMs: int64, isElected: QuorumRule, ms: seq<ControlMessage>)
    ensures var started := StartNewElection(c, ts, timeInMs);
      var s := HandleAll(started.candidate, started.termState, isElected, ms);
      s.candidate.votesFor <= {c.nodeId} + EligibleVoters(c.nodeId, Wrap32(ts.leadershipTerm + 1), ms)
  {
    var started := StartNewElection(c, ts, timeInMs);
    VotesComeFromCurrentTerm(started.candidate, started.termState, isElected, ms, {});
  }

  /** As written, a candidate that won term 1 with nodes 2 and 3 still holds
      their votes when it later starts a new election; in term 2 a single FOR
      vote from node 4 then elects it in a five-node cluster, although only
      nodes 1 and 4 voted in term 2. */
  lemma WonVotesCarryIntoNewElection()
    ensures var started := StartNewElection(NewCandidate(1, 11, 5), Fresh(), 0);
      var v2 := OnReplyVote(started.candidate, started.termState, Majority, 2, 1, 1, FOR);
      var won := OnReplyVote(v2.candidate, v2.termState, Majority, 3, 1, 1, FOR);
      var again := StartNewElectionAsWritten(won.candidate, won.termState, 100);
      var elected := OnReplyVote(again.candidate, again.termState, Majority, 4, 1, 2, FOR);
      && won.action == BREAK && won.termState.leadershipTerm == 1
      && again.candidate.votesFor == {1, 2, 3}
      && elected.action == BREAK && elected.termState.leadershipTerm == 2
  {
    var started := StartNewElection(NewCandidate(1, 11, 5), Fresh(), 0);
    var v2 := OnReplyVote(started.candidate, started.termState, Majority, 2, 1, 1, FOR);
    assert v2.candidate.votesFor == {1, 2};
    var won := OnReplyVote(v2.candidate, v2.termState, Majority, 3, 1, 1, FOR);
    assert won.candidate.votesFor == {1, 2, 3};
    assert |won.candidate.votesFor| == 3;
    var again := StartNewElectionAsWritten(won.candidate, won.termState, 100);
    assert again.candidate.votesFor == {1, 2, 3};
    assert |again.candidate.votesFor + {4}| == 4;
  }

  /** The same run with the intended new election does not elect node 1. */
  lemma NewElectionNeedsFreshMajority()
    ensures var started := StartNewElection(NewCandidate(1, 11, 5), Fresh(), 0);
      var v2 := OnReplyVote(started.candidate, started.termState, Majority, 2, 1, 1, FOR);
      var won := OnReplyVote(v2.candidate, v2.termState, Majority, 3, 1, 1, FOR);
      var again := StartNewElection(won.candidate, won.termState, 100);
      OnReplyVote(again.candidate, again.termState, Majority, 4, 1, 2, FOR).action == CONTINUE
  {
    var started := StartNewElection(NewCandidate(1, 11, 5), Fresh(), 0);
    var v2 := OnReplyVote(started.candidate, started.termState, Majority, 2, 1, 1, FOR);
    var won := OnReplyVote(v2.candidate, v2.termState, Majority, 3, 1, 1, FOR);
    assert won.termState.leadershipTerm == 1;
    var again := StartNewElection(won.candidate, won.termState, 100);
    assert again.candidate.votesFor == {1};
    assert again.candidate.leaderShipTerm == 2;
    assert |again.candidate.votesFor + {4}| == 2;
  }
}

=== FILE: initiate_session_reply.dfy ===
/** The library's pending reply to an "initiate session" request: it asks
    the engine to connect to each configured (host, port) address in turn,
    moving to the next address whenever the engine reports that it could
    not connect, and fails once every address has been tried. Calls into
    the library poller and into the generic reply it extends are returned
    as events; their results are parameters. */
module InitiateSession {
  import opened JavaInts

  /** The engine's error codes; only the connection failure is told apart. */
  datatype GatewayError = UnableToConnect | OtherGatewayError(name: string)

  function ErrorName(e: GatewayError): string
  {
    match e
    case UnableToConnect => "UNABLE_TO_CONNECT"
    case OtherGatewayError(name) => name
  }

  /** Observable effects of the reply's operations, in order. */
  datatype Event =
    | SendInitiateConnection(host: string, port: int32, correlationId: int64)
    | Register(correlationId: int64)
    | Failed(message: string)
    | AddressStamped(host: string, port: int32)
    | Completed
    | SuperPoll(timeInMs: int64)
    | MidConnectionDisconnect(correlationId: int64)
    | SuperTimeout
    | IndexOutOfBounds

  /** The failure reported when every address has been tried. */
  const NO_ADDRESS_LEFT: string := "Unable to connect to any of the addresses specified"

  /** The reply's state; the hosts and ports are the session
      configuration's parallel lists. */
  datatype Reply = Reply(
    correlationId: int64,
    hosts: seq<string>,
    ports: seq<int32>,
    addressIndex: int32,
    requiresResend: bool)

  datatype Step = Step(reply: Reply, events: seq<Event>)

  /** The address at `i`, when both lists have one there. */
  predicate HasAddress(r: Reply, i: int)
  {
    0 <= i < |r.hosts| && i < |r.ports|
  }

  /** The last event is a thrown exception: the operation stopped there. */
  predicate Threw(s: Step)
  {
    |s.events| > 0 && s.events[|s.events| - 1] == IndexOutOfBounds
  }

  /** Asks the engine to connect to the current address; `position` is the
      result of publishing that request, negative when back-pressured. */
  function SendMessage(reply: Reply, position: int64): (s: Step)
    ensures reply.addressIndex >= |reply.hosts| ==> s == Step(reply, [Failed(NO_ADDRESS_LEFT)])
    ensures HasAddress(reply, reply.addressIndex) ==>
      && s.reply == reply.(requiresResend := position < 0)
      && s.events == [SendInitiateConnection(reply.hosts[reply.addressIndex], reply.ports[reply.addressIndex], reply.correlationId)]
    ensures reply.addressIndex < |reply.hosts| && !HasAddress(reply, reply.addressIndex) ==>
      s == Step(reply, [IndexOutOfBounds])
    ensures s.reply.addressIndex == reply.addressIndex && s.reply.hosts == reply.hosts && s.reply.ports == reply.ports
    ensures |s.events| == 1
  {
    var i := reply.addressIndex;
    if i >= |reply.hosts| then Step(reply, [Failed(NO_ADDRESS_LEFT)])
    else if i < 0 || i >= |reply.ports| then Step(reply, [IndexOutOfBounds])
    else
      Step(reply.(requiresResend := position < 0),
           [SendInitiateConnection(reply.hosts[i], reply.ports[i], reply.correlationId)])
  }

  /** A new reply, registered by the generic reply under `correlationId`,
      starts at the first address and sends only when the poller is
      connected. */
  function NewReply(correlationId: int64, hosts: seq<string>, ports: seq<int32>, isConnected: bool, position: int64)
    : (s: Step)
    ensures s.reply.addressIndex == 0 && s.reply.hosts == hosts && s.reply.ports == ports
    ensures s.reply.correlationId == correlationId
    ensures !isConnected ==> s.events == [] && !s.reply.requiresResend
    ensures isConnected ==> |s.events| == 1
    ensures isConnected && |hosts| > 0 && |ports| > 0 ==>
      && s.events == [SendInitiateConnection(hosts[0], ports[0], correlationId)]
      && (s.reply.requiresResend <==> position < 0)
    ensures isConnected && |hosts| == 0 ==> s.events == [Failed(NO_ADDRESS_LEFT)]
  {
    var reply := Reply(correlationId, hosts, ports, 0, false);
    if isConnected then SendMessage(reply, position) else Step(reply, [])
  }

  /** An error from the engine: a connection failure moves to the next
      address, re-registers, which gives the reply the correlation id
      `registeredId`, and sends again with it; any other error fails the
      reply with the error's name and message. */
  function OnError(reply: Reply, errorType: GatewayError, errorMessage: string, registeredId: int64, position: int64)
    : (s: Step)
    ensures errorType.UnableToConnect? ==>
      var next := reply.(addressIndex := Wrap32(reply.addressIndex + 1), correlationId := registeredId);
      && s.reply.addressIndex == Wrap32(reply.addressIndex + 1)
      && s.reply.correlationId == registeredId
      && |s.events| == 2 && s.events[0] == Register(registeredId)
      && s.events[1..] == SendMessage(next, position).events
    ensures !errorType.UnableToConnect? ==>
      s == Step(reply, [Failed(ErrorName(errorType) + ": " + errorMessage)])
    ensures s.reply.hosts == reply.hosts && s.reply.ports == reply.ports
  {
    if errorType.UnableToConnect? then
      var next := reply.(addressIndex := Wrap32(reply.addressIndex + 1), correlationId := registeredId);
      var sent := SendMessage(next, position);
      Step(sent.reply, [Register(registeredId)] + sent.events)
    else
      Step(reply, [Failed(ErrorName(errorType) + ": " + errorMessage)])
  }

  /** The session is complete: it is stamped with the address that was
      connected to, then the reply completes. */
  function OnComplete(reply: Reply): (s: Step)
    ensures s.reply == reply
    ensures HasAddress(reply, reply.addressIndex) ==>
      s.events == [AddressStamped(reply.hosts[reply.addressIndex], reply.ports[reply.addressIndex]), Completed]
    ensures !HasAddress(reply, reply.addressIndex) ==> s.events == [IndexOutOfBounds]
  {
    var i := reply.addressIndex;
    if HasAddress(reply, i) then Step(reply, [AddressStamped(reply.hosts[i], reply.ports[i]), Completed])
    else Step(reply, [IndexOutOfBounds])
  }

  /** Sends again when the last request was back-pressured, then polls the
      generic reply, whose result `superResult` is returned. */
  function Poll(reply: Reply, timeInMs: int64, position: int64, superResult: bool): (r: (bool, Step))
    ensures !reply.requiresResend ==> r == (superResult, Step(reply, [SuperPoll(timeInMs)]))
    ensures reply.requiresResend ==>
      var sent := SendMessage(reply, position);
      && r.1.reply == sent.reply
      && |r.1.events| >= 1 && r.1.events[..1] == sent.events
      && (Threw(sent) ==> r.1.events == sent.events)
      && (!Threw(sent) ==> r == (superResult, Step(sent.reply, sent.events + [SuperPoll(timeInMs)])))
    ensures r.1.reply.addressIndex == reply.addressIndex
  {
    if reply.requiresResend then
      var sent := SendMessage(reply, position);
      if Threw(sent) then (false, sent) else (superResult, Step(sent.reply, sent.events + [SuperPoll(timeInMs)]))
    else (superResult, Step(reply, [SuperPoll(timeInMs)]))
  }

  /** Times out: tells the engine about the disconnect under the current
      correlation id, `disconnectPosition` being the result of publishing
      that, and times the generic reply out only when it was published;
      never asks to be kept. */
  function OnTimeout(reply: Reply, disconnectPosition: int64): (r: (bool, Step))
    ensures !r.0
    ensures r.1.reply == reply
    ensures |r.1.events| >= 1 && r.1.events[0] == MidConnectionDisconnect(reply.correlationId)
    ensures r.1.events[1..] == (if disconnectPosition > 0 then [SuperTimeout] else [])
  {
    (false, Step(reply, [MidConnectionDisconnect(reply.correlationId)]
                        + (if disconnectPosition > 0 then [SuperTimeout] else [])))
  }

  /** An operation on the reply, with the results of the calls it makes. */
  datatype Operation =
    | ErrorOp(errorType: GatewayError, errorMessage: string, registeredId: int64, position: int64)
    | CompleteOp
    | PollOp(timeInMs: int64, position: int64, superResult: bool)
    | TimeoutOp(disconnectPosition: int64)

  function Apply(reply: Reply, op: Operation): Reply
  {
    match op
    case ErrorOp(e, m, id, p) => OnError(reply, e, m, id, p).reply
    case CompleteOp => OnComplete(reply).reply
    case PollOp(t, p, res) => Poll(reply, t, p, res).1.reply
    case TimeoutOp(p) => OnTimeout(reply, p).1.reply
  }

  function ApplyAll(reply: Reply, ops: seq<Operation>): Reply
    decreases |ops|
  {
    if |ops| == 0 then reply else ApplyAll(Apply(reply, ops[0]), ops[1..])
  }

  /** How many of the operations report a connection failure. */
  function ConnectFailures(ops: seq<Operation>): nat
    decreases |ops|
  {
    if |ops| == 0 then 0
    else (if ops[0].ErrorOp? && ops[0].errorType.UnableToConnect? then 1 else 0) + ConnectFailures(ops[1..])
  }

  /** The address index moves only on connection failures, by exactly one
      each: it never goes back while it stays within an `int`. */
  lemma {:induction false} AddressIndexCountsFailures(reply: Reply, ops: seq<Operation>)
    requires reply.addressIndex + ConnectFailures(ops) <= INT32_MAX
    ensures ApplyAll(reply, ops).addressIndex == reply.addressIndex + ConnectFailures(ops)
    ensures ApplyAll(reply, ops).addressIndex >= reply.addressIndex
    ensures ApplyAll(reply, ops).hosts == reply.hosts && ApplyAll(reply, ops).ports == reply.ports
    decreases |ops|
  {
    if |ops| > 0 {
      AddressIndexCountsFailures(Apply(reply, ops[0]), ops[1..]);
    }
  }

  /** What one connection failure is answered with: the correlation id the
      re-registration gives and the result of publishing the new request. */
  datatype Retry = Retry(registeredId: int64, position: int64)

  /** The effects of a run of connection failures. */
  function FailoverRun(reply: Reply, retries: seq<Retry>): Step
    decreases |retries|
  {
    if |retries| == 0 then Step(reply, [])
    else
      var s := OnError(reply, UnableToConnect, "", retries[0].registeredId, retries[0].position);
      var rest := FailoverRun(s.reply, retries[1..]);
      Step(rest.reply, s.events + rest.events)
  }

  /** Reference: for each retry, re-register and try the next address from
      `from`, in order, under the id just registered. */
  function Attempts(hosts: seq<string>, ports: seq<int32>, from: nat, retries: seq<Retry>): seq<Event>
    requires from + |retries| <= |hosts| && from + |retries| <= |ports|
    decreases |retries|
  {
    if |retries| == 0 then []
    else [Register(retries[0].registeredId), SendInitiateConnection(hosts[from], ports[from], retries[0].registeredId)]
         + Attempts(hosts, ports, from + 1, retries[1..])
  }

  /** Connection failures walk the addresses in configuration order, one
      request per failure, while addresses remain. */
  lemma {:induction false} FailoverWalksAddresses(reply: Reply, retries: seq<Retry>)
    requires 0 <= reply.addressIndex
    requires reply.addressIndex + |retries| < |reply.hosts| && reply.addressIndex + |retries| < |reply.ports|
    requires |reply.hosts| <= INT32_MAX
    ensures FailoverRun(reply, retries).reply.addressIndex == reply.addressIndex + |retries|
    ensures FailoverRun(reply, retries).events
         == Attempts(reply.hosts, reply.ports, reply.addressIndex + 1, retries)
    decreases |retries|
  {
    if |retries| > 0 {
      var s := OnError(reply, UnableToConnect, "", retries[0].registeredId, retries[0].position);
      FailoverWalksAddresses(s.reply, retries[1..]);
    }
  }

  /** After a run of connection failures the reply answers to the id it
      registered last, so a timeout tells the engine about the disconnect
      under that id. */
  lemma {:induction false} TimeoutUsesLatestRegisteredId(reply: Reply, retries: seq<Retry>, disconnectPosition: int64)
    requires |retries| > 0
    ensures FailoverRun(reply, retries).reply.correlationId == retries[|retries| - 1].registeredId
    ensures OnTimeout(FailoverRun(reply, retries).reply, disconnectPosition).1.events[0]
         == MidConnectionDisconnect(retries[|retries| - 1].registeredId)
    decreases |retries|
  {
    var s := OnError(reply, UnableToConnect, "", retries[0].registeredId, retries[0].position);
    if |retries| > 1 {
      TimeoutUsesLatestRegisteredId(s.reply, retries[1..], disconnectPosition);
    }
  }

  /** One failure too many: once the last address has failed, the reply
      re-registers and fails without sending. */
  lemma FailsOnceAddressesAreExhausted(reply: Reply, errorMessage: string, registeredId: int64, position: int64)
    requires reply.addressIndex == |reply.hosts| - 1
    requires |reply.hosts| <= INT32_MAX
    ensures OnError(reply, UnableToConnect, errorMessage, registeredId, position).events
         == [Register(registeredId), Failed(NO_ADDRESS_LEFT)]
    ensures OnError(reply, UnableToConnect, errorMessage, registeredId, position).reply.addressIndex == |reply.hosts|
  {
  }

  /** Two addresses: the first is tried on creation, the second after one
      connection failure under the newly registered id, and a second failure
      fails the reply. */
  lemma TwoAddressScenario()
    ensures var s0 := NewReply(5, ["a", "b"], [1, 2], true, 10);
      var s1 := OnError(s0.reply, UnableToConnect, "refused", 6, 20);
      var s2 := OnError(s1.reply, UnableToConnect, "refused", 7, 30);
      && s0.events == [SendInitiateConnection("a", 1, 5)]
      && s1.events == [Register(6), SendInitiateConnection("b", 2, 6)]
      && s2.events == [Register(7), Failed(NO_ADDRESS_LEFT)]
  {
  }
}

=== FILE: java_ints.dfy ===
/** Java's fixed-width two's-complement integers, and what storing an
    arithmetic result in one of them does. */
module JavaInts {

  const TWO_32: int := 0x1_0000_0000
  const TWO_64: int := 0x1_0000_0000_0000_0000

  const INT32_MIN: int := -0x8000_0000
  const INT32_MAX: int := 0x7fff_ffff
  const INT64_MIN: int := -0x8000_0000_0000_0000
  const INT64_MAX: int := 0x7fff_ffff_ffff_ffff

  /** A Java `short`. */
  type int16 = x: int | -0x8000 <= x < 0x8000

  /** A Java `int`. */
  type int32 = x: int | INT32_MIN <= x <= INT32_MAX

  /** A Java `int` that is never negative (a buffer capacity, a size). */
  type nat32 = x: int | 0 <= x <= INT32_MAX

  /** A Java `long`. */
  type int64 = x: int | INT64_MIN <= x <= INT64_MAX

  /** The value a Java `int` holds after an `int` operation whose exact
      result is `x`: the unique int32 congruent to `x` modulo 2^32. */
  function Wrap32(x: int): (r: int32)
    ensures INT32_MIN <= x <= INT32_MAX ==> r == x
    ensures (x - r) % TWO_32 == 0
  {
    (x - INT32_MIN) % TWO_32 + INT32_MIN
  }

  /** The value a Java `long` holds after a `long` operation whose exact
      result is `x`: the unique int64 congruent to `x` modulo 2^64. */
  function Wrap64(x: int): (r: int64)
    ensures INT64_MIN <= x <= INT64_MAX ==> r == x
    ensures (x - r) % TWO_64 == 0
  {
    (x - INT64_MIN) % TWO_64 + INT64_MIN
  }

  /** The unsigned reading of a `long`'s 64 bits, as `>>>` sees them. */
  function Unsigned64(x: int64): (r: nat)
    ensures r < TWO_64
    ensures (r - x) % TWO_64 == 0
  {
    if x < 0 then x + TWO_64 else x
  }

  /** Storing a wrapped `int` sum is the same as wrapping the exact sum once. */
  lemma Wrap32OfSum(a: int, b: int)
    ensures Wrap32(Wrap32(a) + b) == Wrap32(a + b)
  {
    var k := (a - Wrap32(a)) / TWO_32;
    assert a - Wrap32(a) == k * TWO_32;
    assert (Wrap32(a) + b) - INT32_MIN == (a + b - INT32_MIN) - k * TWO_32;
  }
}

=== FILE: log_positions.dfy ===
/** Log-position arithmetic: a 64-bit position splits into the id of the
    term segment holding it and the offset inside that segment, using the
    number of trailing zero bits of the (power-of-two) term length. */
module LogPositions {
  import opened JavaInts

  function Pow2(n: nat): (r: nat)
    ensures r >= 1
  {
    if n == 0 then 1 else 2 * Pow2(n - 1)
  }

  function Abs(x: int): nat
  {
    if x < 0 then -x else x
  }

  /** `Integer.numberOfTrailingZeros`: 32 for zero, otherwise how many
      times 2 divides the value. */
  function TrailingZeros(x: int32): (r: nat)
    ensures x == 0 ==> r == 32
    ensures x != 0 ==> Pow2(r) <= Abs(x)
    ensures x != 0 ==> x % Pow2(r) == 0 && x % Pow2(r + 1) != 0
    decreases Abs(x)
  {
    if x == 0 then 32
    else if x % 2 != 0 then 0
    else
      var r := TrailingZeros(x / 2);
      DoubleMod(x / 2, Pow2(r));
      DoubleMod(x / 2, Pow2(r + 1));
      1 + r
  }

  /** Doubling both sides of a remainder doubles the remainder. */
  lemma DoubleMod(y: int, m: int)
    requires m >= 1
    ensures (2 * y) % (2 * m) == 2 * (y % m)
  {
    DivMod(y, m);
    DivModUnique(2 * y, 2 * m, y / m, 2 * (y % m));
  }

  /** `x` is a positive power of two. */
  predicate IsPowerOfTwo(x: int)
    decreases if x < 0 then 0 else x
  {
    x == 1 || (x > 1 && x % 2 == 0 && IsPowerOfTwo(x / 2))
  }

  /** For a power-of-two term length, shifting by its trailing zeros is
      dividing by the length itself. */
  lemma {:induction false} ShiftOfPowerOfTwo(length: int32)
    requires IsPowerOfTwo(length)
    ensures Pow2(TrailingZeros(length)) == length
    decreases length
  {
    if length != 1 {
      ShiftOfPowerOfTwo(length / 2);
    }
  }

  /** `(int)(position >>> shift) + initialTermId`: the id of the term that
      holds `position`. */
  function TermIdFromPosition(position: int64, shift: nat, initialTermId: int32): int32
  {
    Wrap32(Wrap32(Unsigned64(position) / Pow2(shift)) + initialTermId)
  }

  /** `(int)(position & ((1L << shift) - 1))`: the offset of `position`
      inside its term. */
  function TermOffsetFromPosition(position: int64, shift: nat): int32
  {
    Wrap32(Unsigned64(position) % Pow2(shift))
  }

  lemma DivNonNegative(a: int, b: int)
    requires 0 <= a && 0 < b
    ensures 0 <= a / b
  {
  }

  /** A non-negative position lies in the term `position / termLength`
      after the initial one, the sum wrapping as an `int` does. */
  lemma TermIdOfPowerOfTwo(position: int64, termLength: int32, initialTermId: int32)
    requires IsPowerOfTwo(termLength) && termLength <= 0x4000_0000
    requires 0 <= position
    ensures TermIdFromPosition(position, TrailingZeros(termLength), initialTermId)
              == Wrap32(initialTermId + position / termLength)
  {
    var shift := TrailingZeros(termLength);
    ShiftOfPowerOfTwo(termLength);
    var u := Unsigned64(position) / Pow2(shift);
    assert u == position / termLength;
    Wrap32OfSum(u, initialTermId);
  }

  /** A non-negative position lies `position % termLength` bytes into its term. */
  lemma TermOffsetOfPowerOfTwo(position: int64, termLength: int32)
    requires IsPowerOfTwo(termLength) && termLength <= 0x4000_0000
    requires 0 <= position
    ensures TermOffsetFromPosition(position, TrailingZeros(termLength)) == position % termLength
  {
    assert termLength >= 1;
    ShiftOfPowerOfTwo(termLength);
    assert Unsigned64(position) % Pow2(TrailingZeros(termLength)) == position % termLength;
  }

  /** Decomposing a position and recomposing it,
      `((termId - initialTermId) << shift) + termOffset` with the `int`
      subtraction wrapping, gives the position back, for a power-of-two
      term length of at most 2^30 and a term count that fits an `int`,
      whatever the initial term id. The offset lies inside the term. */
  lemma DecomposeRoundTrip(position: int64, termLength: int32, initialTermId: int32)
    requires IsPowerOfTwo(termLength) && termLength <= 0x4000_0000
    requires 0 <= position
    requires position / termLength <= INT32_MAX
    ensures var shift := TrailingZeros(termLength);
      var termId := TermIdFromPosition(position, shift, initialTermId);
      var termOffset := TermOffsetFromPosition(position, shift);
      && 0 <= termOffset < termLength
      && Wrap32(termId - initialTermId) * Pow2(shift) + termOffset == position
  {
    var shift := TrailingZeros(termLength);
    ShiftOfPowerOfTwo(termLength);
    TermIdOfPowerOfTwo(position, termLength, initialTermId);
    TermOffsetOfPowerOfTwo(position, termLength);
    var q := position / termLength;
    DivNonNegative(position, termLength);
    Wrap32OfSum(initialTermId + q, -(initialTermId as int));
    assert Wrap32(TermIdFromPosition(position, shift, initialTermId) - initialTermId) == q;
    DivMod(position, termLength);
  }

  lemma DivMod(a: int, b: int)
    requires 0 < b
    ensures a / b * b + a % b == a && 0 <= a % b < b
  {
  }

  /** Positions inside one term share its id, and their offsets differ by
      their distance. */
  lemma SameTermSameId(position: int64, termLength: int32, initialTermId: int32, k: nat)
    requires IsPowerOfTwo(termLength) && termLength <= 0x4000_0000
    requires 0 <= position && position % termLength + k < termLength && position + k <= INT64_MAX
    ensures var shift := TrailingZeros(termLength);
      && TermIdFromPosition(position + k, shift, initialTermId) == TermIdFromPosition(position, shift, initialTermId)
      && TermOffsetFromPosition(position + k, shift) == TermOffsetFromPosition(position, shift) + k
  {
    assert termLength >= 1;
    var q := position / termLength;
    var o := position % termLength;
    DivMod(position, termLength);
    DivModUnique(position + k, termLength, q, o + k);
    TermIdOfPowerOfTwo(position, termLength, initialTermId);
    TermIdOfPowerOfTwo(position + k, termLength, initialTermId);
    TermOffsetOfPowerOfTwo(position, termLength);
    TermOffsetOfPowerOfTwo(position + k, termLength);
  }

  lemma DivModUnique(a: int, b: int, q: int, r: int)
    requires 0 < b && 0 <= r < b && a == q * b + r
    ensures a / b == q && a % b == r
  {
    DivMod(a, b);
    var d := a / b - q;
    assert d * b == r - a % b;
    MultipleBound(d, b);
  }

  lemma MultipleBound(d: int, b: int)
    requires 0 < b
    ensures d > 0 ==> d * b >= b
    ensures d < 0 ==> d * b <= -b
  {
  }
}

=== FILE: options.dfy ===
/** The Java `null` reference, made explicit. */
module Options {

  datatype Option<+T> = None | Some(value: T)
}

=== FILE: replay_index.dfy ===
/** The replay index: for every FIX session, an index file of fixed-size
    records, one per FIX message seen in the log, appended at an in-memory
    cursor that starts just after the file's schema header. The decoders
    of the message envelope and of the FIX header are oracles over the
    source buffer. */
module ReplayIndexing {
  import opened JavaInts
  import opened Options

  /** An SBE `uint16` header field. */
  type uint16 = x: int | 0 <= x < 0x1_0000

  /** Encoded length of an SBE message header (four `uint16` fields). */
  const MESSAGE_HEADER_LENGTH: int := 8
  /** Block length of an index record: two `int`s, a `long`, an `int`. */
  const RECORD_BLOCK_LENGTH: int := 20
  /** Bytes between a FIX message frame's fixed block and the FIX text:
      the length prefix of the variable-length body. */
  const BODY_LENGTH_PREFIX: int := 2

  datatype MessageHeader = MessageHeader(blockLength: uint16, templateId: uint16, schemaId: uint16, version: uint16)

  /** The generated codecs' identifiers. */
  datatype Schema = Schema(fixMessageTemplateId: uint16, recordTemplateId: uint16, recordSchemaId: uint16, recordVersion: uint16)

  /** A log buffer as the decoders see it: the SBE header at an offset;
      the FIX message frame's session id and body length, given the frame
      offset, acting block length and version; the FIX header's sequence
      number, given the FIX text's offset and length. */
  datatype SourceBuffer = SourceBuffer(
    headerAt: int32 -> MessageHeader,
    sessionAt: (int32, uint16, uint16) -> int64,
    bodyLengthAt: (int32, uint16, uint16) -> int32,
    msgSeqNumAt: (int32, int32) -> int32)

  datatype ReplayIndexRecord = ReplayIndexRecord(streamId: int32, aeronSessionId: int32, position: int64, sequenceNumber: int32)

  /** One session's index file while it is mapped: the header at offset 0,
      the append cursor, and the record written at each byte offset since
      the file was mapped. */
  datatype SessionIndex = SessionIndex(header: MessageHeader, offset: int, slots: map<int, ReplayIndexRecord>)

  /** Index files are mapped with `indexFileSize` bytes. */
  datatype ReplayIndex = ReplayIndex(indexFileSize: int32, schema: Schema, sessionToIndex: map<int64, SessionIndex>)

  /** The index after a call, and whether the call threw because a write
      fell outside the mapped file. */
  datatype Outcome = Outcome(index: ReplayIndex, thrown: bool)

  /** A frame handed to the index from the log. */
  datatype Frame = Frame(src: SourceBuffer, srcOffset: int32, srcLength: int32,
                         streamId: int32, aeronSessionId: int32, position: int64)

  function NewReplayIndex(indexFileSize: int32, schema: Schema): (r: ReplayIndex)
    ensures WellFormed(r)
    ensures forall s :: RecordsOf(r, s) == []
  {
    ReplayIndex(indexFileSize, schema, map[])
  }

  /** The header every index file starts with: it describes the records. */
  function RecordHeader(schema: Schema): MessageHeader
  {
    MessageHeader(RECORD_BLOCK_LENGTH, schema.recordTemplateId, schema.recordSchemaId, schema.recordVersion)
  }

  /** Byte offset of the k-th record of an index file. */
  function SlotOffset(k: nat): int
  {
    MESSAGE_HEADER_LENGTH + k * RECORD_BLOCK_LENGTH
  }

  /** Records an index file holds, by its cursor. */
  function Count(si: SessionIndex): int
  {
    (si.offset - MESSAGE_HEADER_LENGTH) / RECORD_BLOCK_LENGTH
  }

  /** Densely packed: the cursor sits on a record boundary, every record
      slot before it is written and nothing else is. */
  predicate Packed(si: SessionIndex)
  {
    && si.offset >= MESSAGE_HEADER_LENGTH
    && (si.offset - MESSAGE_HEADER_LENGTH) % RECORD_BLOCK_LENGTH == 0
    && (forall o :: o in si.slots ==>
          MESSAGE_HEADER_LENGTH <= o < si.offset && (o - MESSAGE_HEADER_LENGTH) % RECORD_BLOCK_LENGTH == 0)
    && (forall k: nat :: k < Count(si) ==> SlotOffset(k) in si.slots)
  }

  /** The first n records of a packed file, in file order. */
  function RecordsUpTo(si: SessionIndex, n: nat): seq<ReplayIndexRecord>
    requires Packed(si) && n <= Count(si)
  {
    if n == 0 then [] else RecordsUpTo(si, n - 1) + [si.slots[SlotOffset(n - 1)]]
  }

  function Records(si: SessionIndex): (rs: seq<ReplayIndexRecord>)
    requires Packed(si)
    ensures |rs| == Count(si)
    ensures si.offset == SlotOffset(|rs|)
  {
    RecordsLength(si, Count(si));
    RecordsUpTo(si, Count(si))
  }

  lemma {:induction false} RecordsLength(si: SessionIndex, n: nat)
    requires Packed(si) && n <= Count(si)
    ensures |RecordsUpTo(si, n)| == n
  {
    if n > 0 { RecordsLength(si, n - 1); }
  }

  /** Every index file is packed, describes the record schema, and ends
      within the mapped size. */
  predicate WellFormed(index: ReplayIndex)
  {
    forall s :: s in index.sessionToIndex ==>
      && Packed(index.sessionToIndex[s])
      && index.sessionToIndex[s].header == RecordHeader(index.schema)
      && index.sessionToIndex[s].offset <= index.indexFileSize
  }

  /** The records indexed for a FIX session so far. */
  function RecordsOf(index: ReplayIndex, session: int64): seq<ReplayIndexRecord>
    requires WellFormed(index)
  {
    if session in index.sessionToIndex then Records(index.sessionToIndex[session]) else []
  }

  /** Maps a new index file and writes its header; throws when the header
      does not fit. */
  function NewSessionIndex(schema: Schema, indexFileSize: int32): (r: Option<SessionIndex>)
    ensures r.None? <==> indexFileSize < MESSAGE_HEADER_LENGTH
    ensures r.Some? ==>
      && r.value.header == RecordHeader(schema)
      && Packed(r.value)
      && Records(r.value) == []
      && r.value.offset <= indexFileSize
  {
    if indexFileSize < MESSAGE_HEADER_LENGTH then None
    else Some(SessionIndex(RecordHeader(schema), MESSAGE_HEADER_LENGTH, map[]))
  }

  /** Writes a record at the cursor and moves the cursor past it; throws
      when the record does not fit in the file. */
  function OnRecord(si: SessionIndex, indexFileSize: int32, rec: ReplayIndexRecord): (r: Option<SessionIndex>)
    ensures r.None? <==> si.offset + RECORD_BLOCK_LENGTH > indexFileSize
    ensures r.Some? ==>
      && r.value.header == si.header
      && r.value.offset <= indexFileSize
      && si.offset in r.value.slots && r.value.slots[si.offset] == rec
    ensures r.Some? && Packed(si) ==>
      && Packed(r.value)
      && (forall o :: o in si.slots ==> o in r.value.slots && r.value.slots[o] == si.slots[o])
      && Records(r.value) == Records(si) + [rec]
  {
    if si.offset + RECORD_BLOCK_LENGTH > indexFileSize then None
    else
      var si' := SessionIndex(si.header, si.offset + RECORD_BLOCK_LENGTH, si.slots[si.offset := rec]);
      if Packed(si) then AppendPacked(si, rec); Some(si') else Some(si')
  }

  lemma AppendPacked(si: SessionIndex, rec: ReplayIndexRecord)
    requires Packed(si)
    ensures var si' := SessionIndex(si.header, si.offset + RECORD_BLOCK_LENGTH, si.slots[si.offset := rec]);
      && Packed(si')
      && Count(si') == Count(si) + 1
      && Records(si') == Records(si) + [rec]
  {
    var si' := SessionIndex(si.header, si.offset + RECORD_BLOCK_LENGTH, si.slots[si.offset := rec]);
    var n := Count(si);
    assert si.offset == SlotOffset(n);
    assert Count(si') == n + 1;
    forall k: nat | k < Count(si') ensures SlotOffset(k) in si'.slots {
      if k < n { assert SlotOffset(k) in si.slots; }
    }
    assert Packed(si');
    PrefixUnchanged(si, si', n);
  }

  /** Writing at the cursor leaves the records before it as they were. */
  lemma {:induction false} PrefixUnchanged(si: SessionIndex, si': SessionIndex, n: nat)
    requires Packed(si) && Packed(si') && n <= Count(si) && n <= Count(si')
    requires forall k: nat :: k < n ==> si'.slots[SlotOffset(k)] == si.slots[SlotOffset(k)]
    ensures RecordsUpTo(si', n) == RecordsUpTo(si, n)
  {
    if n > 0 { PrefixUnchanged(si, si', n - 1); }
  }

  /** The frame carries a FIX message. */
  predicate IsFixMessage(schema: Schema, frame: Frame)
  {
    frame.src.headerAt(frame.srcOffset).templateId == schema.fixMessageTemplateId
  }

  /** Where the FIX message frame starts: after the SBE header. */
  function FrameOffset(frame: Frame): int32
  {
    Wrap32(frame.srcOffset + MESSAGE_HEADER_LENGTH)
  }

  /** Where the FIX text starts: after the frame's acting block and the
      body's length prefix. */
  function FixHeaderOffset(frame: Frame): int32
  {
    Wrap32(FrameOffset(frame) + frame.src.headerAt(frame.srcOffset).blockLength + BODY_LENGTH_PREFIX)
  }

  /** The FIX session the frame belongs to. */
  function SessionOf(frame: Frame): int64
  {
    var h := frame.src.headerAt(frame.srcOffset);
    frame.src.sessionAt(FrameOffset(frame), h.blockLength, h.version)
  }

  /** The frame's FIX sequence number, decoded from the FIX header. */
  function SequenceNumberOf(frame: Frame): int32
  {
    var h := frame.src.headerAt(frame.srcOffset);
    frame.src.msgSeqNumAt(FixHeaderOffset(frame), frame.src.bodyLengthAt(FrameOffset(frame), h.blockLength, h.version))
  }

  /** The record indexing a frame, with `stored` in its position field. */
  function RecordFor(frame: Frame, stored: int64): ReplayIndexRecord
  {
    ReplayIndexRecord(frame.streamId, frame.aeronSessionId, stored, SequenceNumberOf(frame))
  }

  /** Indexes one frame, storing `stored` as the record's position: a FIX
      message gets one record appended to its session's file, created on
      first use; other frames are skipped. */
  function IndexWith(index: ReplayIndex, frame: Frame, stored: int64): (r: Outcome)
    ensures r.index.indexFileSize == index.indexFileSize && r.index.schema == index.schema
    ensures !IsFixMessage(index.schema, frame) ==> r == Outcome(index, false)
    ensures forall s :: s != SessionOf(frame) ==>
      && (s in r.index.sessionToIndex <==> s in index.sessionToIndex)
      && (s in index.sessionToIndex ==> r.index.sessionToIndex[s] == index.sessionToIndex[s])
    ensures WellFormed(index) ==> WellFormed(r.index)
    ensures WellFormed(index) && IsFixMessage(index.schema, frame) ==>
      (r.thrown <==> SlotOffset(|RecordsOf(index, SessionOf(frame))| + 1) > index.indexFileSize)
    ensures WellFormed(index) && r.thrown ==>
      WellFormed(r.index) && RecordsOf(r.index, SessionOf(frame)) == RecordsOf(index, SessionOf(frame))
    ensures WellFormed(index) && IsFixMessage(index.schema, frame) && !r.thrown ==>
      WellFormed(r.index) &&
      RecordsOf(r.index, SessionOf(frame)) == RecordsOf(index, SessionOf(frame)) + [RecordFor(frame, stored)]
  {
    if !IsFixMessage(index.schema, frame) then Outcome(index, false)
    else
      var session := SessionOf(frame);
      var existing := if session in index.sessionToIndex then Some(index.sessionToIndex[session])
                      else NewSessionIndex(index.schema, index.indexFileSize);
      match existing
      case None => Outcome(index, true)
      case Some(si) =>
        match OnRecord(si, index.indexFileSize, RecordFor(frame, stored))
        case None => Outcome(index.(sessionToIndex := index.sessionToIndex[session := si]), true)
        case Some(si') => Outcome(index.(sessionToIndex := index.sessionToIndex[session := si']), false)
  }

  /** `indexRecord` as written: the record's position field gets the
      frame's offset in the source buffer. */
  function IndexRecordAsWritten(index: ReplayIndex, frame: Frame): (r: Outcome)
    ensures WellFormed(index) && IsFixMessage(index.schema, frame) && !r.thrown ==>
      WellFormed(r.index) &&
      RecordsOf(r.index, SessionOf(frame)) == RecordsOf(index, SessionOf(frame)) + [RecordFor(frame, frame.srcOffset)]
  {
    IndexWith(index, frame, frame.srcOffset)
  }

  /** `indexRecord` as intended: the record's position field gets the
      frame's log position. */
  function IndexRecord(index: ReplayIndex, frame: Frame): (r: Outcome)
    ensures !IsFixMessage(index.schema, frame) ==> r == Outcome(index, false)
    ensures WellFormed(index) ==> WellFormed(r.index)
    ensures WellFormed(index) && IsFixMessage(index.schema, frame) && !r.thrown ==>
      && |RecordsOf(r.index, SessionOf(frame))| > 0
      && var last := RecordsOf(r.index, SessionOf(frame))[|RecordsOf(r.index, SessionOf(frame))| - 1];
         && last.position == frame.position
         && last.sequenceNumber == SequenceNumberOf(frame)
         && last.streamId == frame.streamId && last.aeronSessionId == frame.aeronSessionId
  {
    IndexWith(index, frame, frame.position)
  }

  /** Indexes frames in log order, stopping at the first that throws. */
  function IndexAll(index: ReplayIndex, frames: seq<Frame>): (r: Outcome)
    ensures r.index.schema == index.schema && r.index.indexFileSize == index.indexFileSize
    decreases |frames|
  {
    if |frames| == 0 then Outcome(index, false)
    else
      var o := IndexRecord(index, frames[0]);
      if o.thrown then o else IndexAll(o.index, frames[1..])
  }

  /** Reference: the records a session's file should gain from frames, in
      log order: one per FIX message of that session, holding its stream,
      Aeron session, log position and sequence number. */
  function Expected(schema: Schema, frames: seq<Frame>, session: int64): seq<ReplayIndexRecord>
  {
    if |frames| == 0 then []
    else
      (if IsFixMessage(schema, frames[0]) && SessionOf(frames[0]) == session
       then [RecordFor(frames[0], frames[0].position)] else [])
      + Expected(schema, frames[1..], session)
  }

  /** When no write falls outside a file, indexing a run of frames appends
      exactly the reference records to every session's file. */
  lemma {:induction false} IndexAllAppendsExpected(index: ReplayIndex, frames: seq<Frame>, session: int64)
    requires WellFormed(index)
    requires !IndexAll(index, frames).thrown
    ensures WellFormed(IndexAll(index, frames).index)
    ensures RecordsOf(IndexAll(index, frames).index, session)
         == RecordsOf(index, session) + Expected(index.schema, frames, session)
    decreases |frames|
  {
    if |frames| > 0 {
      var o := IndexRecord(index, frames[0]);
      assert !o.thrown;
      IndexRecordAppendsExpected(index, frames[0], session);
      IndexAllAppendsExpected(o.index, frames[1..], session);
      assert IndexAll(index, frames) == IndexAll(o.index, frames[1..]);
    }
  }

  /** One step of IndexAllAppendsExpected: a frame that does not throw adds
      its own reference records to the session's file. */
  lemma IndexRecordAppendsExpected(index: ReplayIndex, frame: Frame, session: int64)
    requires WellFormed(index)
    requires !IndexRecord(index, frame).thrown
    ensures WellFormed(IndexRecord(index, frame).index)
    ensures IndexRecord(index, frame).index.schema == index.schema
    ensures RecordsOf(IndexRecord(index, frame).index, session)
         == RecordsOf(index, session)
            + (if IsFixMessage(index.schema, frame) && SessionOf(frame) == session
               then [RecordFor(frame, frame.position)] else [])
  {
  }

  /** Closing unmaps every index file and forgets every cursor; the result
      names the files closed. */
  function Close(index: ReplayIndex): (r: (ReplayIndex, set<int64>))
    ensures WellFormed(r.0)
    ensures forall s :: RecordsOf(r.0, s) == []
    ensures r.1 == index.sessionToIndex.Keys
    ensures r.0.indexFileSize == index.indexFileSize && r.0.schema == index.schema
  {
    (index.(sessionToIndex := map[]), index.sessionToIndex.Keys)
  }

  /** Closing twice closes nothing more. */
  lemma CloseIsIdempotent(index: ReplayIndex)
    ensures Close(Close(index).0) == (Close(index).0, {})
  {
    assert Close(index).0.sessionToIndex.Keys == {};
  }

  /** The cursor lives only in memory: after a close, the next FIX message
      of a session is written at the first record slot again. A session's
      `slots` are the records written since its file was last mapped;
      records an earlier mapping left in later slots stay on disk and are
      not represented. */
  lemma CloseRestartsCursor(index: ReplayIndex, frame: Frame)
    requires IsFixMessage(index.schema, frame)
    requires SlotOffset(1) <= index.indexFileSize
    ensures var o := IndexRecord(Close(index).0, frame);
      && !o.thrown
      && SessionOf(frame) in o.index.sessionToIndex
      && o.index.sessionToIndex[SessionOf(frame)].slots == map[SlotOffset(0) := RecordFor(frame, frame.position)]
      && RecordsOf(o.index, SessionOf(frame)) == [RecordFor(frame, frame.position)]
  {
  }

  /** A source buffer holding one FIX message of session 7 with the given
      sequence number, under template id 1. */
  function ScenarioSource(sequenceNumber: int32): SourceBuffer
  {
    SourceBuffer(_ => MessageHeader(0, 1, 0, 0), (_, _, _) => 7, (_, _, _) => 0, (_, _) => sequenceNumber)
  }

  function ScenarioFrame(sequenceNumber: int32, position: int64): Frame
  {
    Frame(ScenarioSource(sequenceNumber), 0, 64, 1, 2, position)
  }

  const SCENARIO_SCHEMA: Schema := Schema(1, 2, 3, 0)

  /** Three FIX messages of one session, with sequence numbers 1, 2, 3 at
      log positions 10, 50, 90, leave exactly three records in its file,
      in that order, with those position and sequence-number pairs. */
  lemma ThreeMessagesScenario()
    ensures var frames := [ScenarioFrame(1, 10), ScenarioFrame(2, 50), ScenarioFrame(3, 90)];
      var o := IndexAll(NewReplayIndex(1024, SCENARIO_SCHEMA), frames);
      && !o.thrown
      && WellFormed(o.index)
      && RecordsOf(o.index, 7)
         == [ReplayIndexRecord(1, 2, 10, 1), ReplayIndexRecord(1, 2, 50, 2), ReplayIndexRecord(1, 2, 90, 3)]
  {
    var frames := [ScenarioFrame(1, 10), ScenarioFrame(2, 50), ScenarioFrame(3, 90)];
    var i0 := NewReplayIndex(1024, SCENARIO_SCHEMA);
    var o1 := IndexRecord(i0, frames[0]);
    assert !o1.thrown && |RecordsOf(o1.index, 7)| == 1;
    var o2 := IndexRecord(o1.index, frames[1]);
    assert !o2.thrown && |RecordsOf(o2.index, 7)| == 2;
    var o3 := IndexRecord(o2.index, frames[2]);
    assert !o3.thrown;
    assert frames[1..][1..] == [frames[2]];
    assert IndexAll(o2.index, frames[1..][1..]) == IndexAll(o3.index, []);
    assert IndexAll(i0, frames) == Outcome(o3.index, false);
    IndexAllAppendsExpected(i0, frames, 7);
    assert Expected(SCENARIO_SCHEMA, frames[1..][1..], 7) == [ReplayIndexRecord(1, 2, 90, 3)];
  }

  /** As written, the first message of the scenario is indexed with its
      buffer offset 0 in the position field instead of its log position 10. */
  lemma AsWrittenStoresBufferOffset()
    ensures var o := IndexRecordAsWritten(NewReplayIndex(1024, SCENARIO_SCHEMA), ScenarioFrame(1, 10));
      && !o.thrown
      && RecordsOf(o.index, 7) == [ReplayIndexRecord(1, 2, 0, 1)]
      && RecordsOf(o.index, 7)[0].position != ScenarioFrame(1, 10).position
  {
    var o := IndexRecordAsWritten(NewReplayIndex(1024, SCENARIO_SCHEMA), ScenarioFrame(1, 10));
    assert !o.thrown;
  }
}

=== FILE: term_state.dfy ===
/** The node-local bookkeeping of the current leadership term and of the log
    positions that the active raft role reads and writes. */
module TermStates {
  import opened JavaInts
  import opened Options

  /** The leader session id meaning "there is no leader". */
  const NO_LEADER: int32 := 0

  /** Identity of the leader for the current term: its node id and the
      transport session of its data stream. */
  datatype LeaderPosition = LeaderPosition(nodeId: int16, sessionId: int32)

  /** The fields of the term state, so that "which fields an update
      touches" can be stated uniformly. */
  datatype Field =
    | LeaderSessionIdField
    | LeadershipTermField
    | ReceivedPositionField
    | LastAppliedPositionField
    | ConsensusPositionField
    | LeaderPositionField

  /** What a field holds: a number, or the (nullable) leader identity. */
  datatype FieldValue = Number(n: int) | Leader(leader: Option<LeaderPosition>)

  /** The atomic and volatile fields of the source are plain fields here. */
  datatype TermState = TermState(
    leaderSessionId: int32,
    leadershipTerm: int32,
    receivedPosition: int64,
    lastAppliedPosition: int64,
    consensusPosition: int64,
    leaderPosition: Option<LeaderPosition>)
  {
    /** The value of field `f`. */
    function Get(f: Field): FieldValue
    {
      match f
      case LeaderSessionIdField => Number(leaderSessionId)
      case LeadershipTermField => Number(leadershipTerm)
      case ReceivedPositionField => Number(receivedPosition)
      case LastAppliedPositionField => Number(lastAppliedPosition)
      case ConsensusPositionField => Number(consensusPosition)
      case LeaderPositionField => Leader(leaderPosition)
    }

    /** True when `other` agrees with this state on every field outside `fs`. */
    predicate SameOutside(other: TermState, fs: set<Field>)
    {
      forall g: Field :: g !in fs ==> other.Get(g) == Get(g)
    }

    function SetLeaderPosition(leader: Option<LeaderPosition>): (r: TermState)
      ensures r.Get(LeaderPositionField) == Leader(leader)
      ensures SameOutside(r, {LeaderPositionField})
    {
      this.(leaderPosition := leader)
    }

    function SetLeaderSessionId(id: int32): (r: TermState)
      ensures r.Get(LeaderSessionIdField) == Number(id)
      ensures SameOutside(r, {LeaderSessionIdField})
    {
      this.(leaderSessionId := id)
    }

    /** Forgets the leader's identity; the leader session id is kept. */
    function NoLeader(): (r: TermState)
      ensures r.Get(LeaderPositionField) == Leader(None)
      ensures SameOutside(r, {LeaderPositionField})
      ensures r.HasLeader() == HasLeader()
    {
      this.(leaderPosition := None)
    }

    function SetLeadershipTerm(term: int32): (r: TermState)
      ensures r.Get(LeadershipTermField) == Number(term)
      ensures SameOutside(r, {LeadershipTermField})
    {
      this.(leadershipTerm := term)
    }

    function SetReceivedPosition(position: int64): (r: TermState)
      ensures r.Get(ReceivedPositionField) == Number(position)
      ensures SameOutside(r, {ReceivedPositionField})
    {
      this.(receivedPosition := position)
    }

    function SetLastAppliedPosition(position: int64): (r: TermState)
      ensures r.Get(LastAppliedPositionField) == Number(position)
      ensures SameOutside(r, {LastAppliedPositionField})
    {
      this.(lastAppliedPosition := position)
    }

    function SetConsensusPosition(position: int64): (r: TermState)
      ensures r.Get(ConsensusPositionField) == Number(position)
      ensures SameOutside(r, {ConsensusPositionField})
    {
      this.(consensusPosition := position)
    }

    /** Moves the received, applied and consensus positions together. */
    function AllPositions(position: int64): (r: TermState)
      ensures r.receivedPosition == position
      ensures r.lastAppliedPosition == position
      ensures r.consensusPosition == position
      ensures SameOutside(r, {ReceivedPositionField, LastAppliedPositionField, ConsensusPositionField})
    {
      SetReceivedPosition(position).SetLastAppliedPosition(position).SetConsensusPosition(position)
    }

    predicate HasLeader()
    {
      leaderSessionId != NO_LEADER
    }

    /** Back to the leaderless, term-0 state, whatever the state was. */
    function Reset(): (r: TermState)
      ensures r == Fresh()
      ensures !r.HasLeader()
    {
      NoLeader().SetLeaderSessionId(0).SetLeadershipTerm(0).AllPositions(0)
    }
  }

  /** A newly constructed term state. */
  function Fresh(): (r: TermState)
    ensures !r.HasLeader()
    ensures forall f: Field :: f != LeaderPositionField ==> r.Get(f) == Number(0)
    ensures r.Get(LeaderPositionField) == Leader(None)
  {
    TermState(NO_LEADER, 0, 0, 0, 0, None)
  }

  /** The term state is determined by its fields. */
  lemma FieldsDetermineState(a: TermState, b: TermState)
    requires forall f: Field :: a.Get(f) == b.Get(f)
    ensures a == b
  {
    assert a.Get(LeaderSessionIdField) == b.Get(LeaderSessionIdField);
    assert a.Get(LeadershipTermField) == b.Get(LeadershipTermField);
    assert a.Get(ReceivedPositionField) == b.Get(ReceivedPositionField);
    assert a.Get(LastAppliedPositionField) == b.Get(LastAppliedPositionField);
    assert a.Get(ConsensusPositionField) == b.Get(ConsensusPositionField);
    assert a.Get(LeaderPositionField) == b.Get(LeaderPositionField);
  }

  /** Moving all positions twice to the same place is moving them once, and
      the later move wins. */
  lemma AllPositionsLastWins(ts: TermState, p: int64, q: int64)
    ensures ts.AllPositions(p).AllPositions(q) == ts.AllPositions(q)
    ensures ts.AllPositions(p).AllPositions(p) == ts.AllPositions(p)
  {
  }

  /** Setters of different fields commute. */
  lemma SettersOfDifferentFieldsCommute(ts: TermState, term: int32, position: int64, leader: Option<LeaderPosition>)
    ensures ts.SetLeadershipTerm(term).AllPositions(position) == ts.AllPositions(position).SetLeadershipTerm(term)
    ensures ts.SetLeaderPosition(leader).AllPositions(position) == ts.AllPositions(position).SetLeaderPosition(leader)
    ensures ts.SetLeaderPosition(leader).SetLeadershipTerm(term) == ts.SetLeadershipTerm(term).SetLeaderPosition(leader)
  {
  }

  /** The only field that decides whether there is a leader is the leader
      session id: neither the leader identity nor any position affects it. */
  lemma HasLeaderOnlyReadsSessionId(a: TermState, b: TermState)
    requires a.SameOutside(b, {LeadershipTermField, ReceivedPositionField, LastAppliedPositionField,
                                ConsensusPositionField, LeaderPositionField})
    ensures a.HasLeader() == b.HasLeader()
  {
    assert b.Get(LeaderSessionIdField) == a.Get(LeaderSessionIdField);
  }
}
